=== FILE: README.md ===
# Lex product and order bots, modelled in Dafny

This project models the two fulfilment handlers of a retail chat bot built on
Amazon Lex (V1 event format).

`GetProductInformation.py` answers three intents:

- `GetProductInfo` lists the products of one category whose price lies strictly
  between two bounds, each with its identifier.
- `CompareProducts` does the same over a second catalogue, without identifiers.
- `SpecificProductDetails` prints every attribute of the product with a given
  identifier.

`OrderHandling.py` answers two intents:

- `CheckOrderStatus` prints every attribute of the order with a given number.
- `PlaceOrder` inserts an order for a product that is in stock. The order gets
  a fresh random 5-digit number. A second requested product in stock makes
  the handler raise, so at most one order is inserted per invocation.

Every handler reads its slots first and stores a serialised query in the
session attributes. While Lex is still collecting slots (`DialogCodeHook`), the
handler hands control back with a delegation. Otherwise it scans its table and
closes the conversation as fulfilled, with a plain-text reply. When the reply
would be empty, it is the fallback text "No items for that criteria found!".

Modules:

- `Outcomes`: `Option` and `Result`, and the exceptions the handlers can raise:
  - `KeyError`: a record lacks an attribute (`KeyError(name)`), or holds it
    with the other type tag (`KeyError('S')` or `KeyError('N')`).
  - `TypeError`: `float(None)` on an unset price slot.
  - `ValueError`: `int()` or `float()` rejects a text.
  - `AttributeError`: an attribute looked up on an object that lacks it.
  - `IntentNotSupported`: the dispatcher's own exception.
  - `SamplingDiverges`: the order-number loop can never stop.
- `Text`: ASCII case mapping, and the decimal printing and parsing (`str`/`int`)
  that order numbers pass through.
- `Store`: scanned records, as sequences of named `S`/`N` attribute values with
  unique names. Also the last-match-wins scan, and the `key: value | ` rendering
  of a whole record.
- `Lex`: request and response shapes, slot access (`str(None)` is "None"), the
  session query, and the fulfilled close.
- `ProductInformation`: the product bot.
- `OrderHandling`: the order bot. `PlaceOrder` returns the extended order table
  and the numbers it issued.

Each table is a sequence passed in, in scan order. For the first requested
product in stock, the placement loop scans the order table through the
low-level DynamoDB client (`OrderHandling.py:198`). It then rebinds the same
variable to the high-level resource to insert the order (`OrderHandling.py:218`).
The resource has no `scan` method. A second requested product in stock
therefore raises `AttributeError` before any further scan. The order inserted
first stays in the table (`OrderHandling.SecondInStockMatchRaises`). The sampling loop `random.randint(10000, 99999)` becomes a
nondeterministic choice of any unused 5-digit number. The success message is
kept exactly as the code builds it, including the missing space before
"has been placed".

The listing handlers convert `MinPrice` and `MaxPrice` with `float()` before
they look at the invocation source. An unset or unreadable price slot therefore
raises even in the dialog phase (`ProductInformation.ListingDialogDelegates`).

## Model

| member | source | states |
|---|---|---|
| Text.Lower | GetProductInformation.py:243 | `str.lower` keeps the length and leaves no capital letter. Each capital becomes the small letter 32 code points above it, and every other character is kept |
| Text.Upper | OrderHandling.py:226 | `str.upper` keeps the length and leaves no small letter. Each small letter becomes the capital 32 code points below it, and every other character is kept |
| Text.ParseInt | OrderHandling.py:205 | `int()` accepts exactly a non-empty digit string, optionally after one `+` or `-`, and rejects every other text, the empty one included. It reads the digits as their decimal value, negated after a `-` |
| Text.DecimalString | OrderHandling.py:222 | `str(n)` of a natural number is a non-empty string of decimal digits with no leading zero once the number has two digits |
| Text.ParseDecimalRoundTrip | OrderHandling.py:205 | `int()` of an issued number's printed form gives the number back, so the uniqueness scan reads exactly the numbers that were inserted |
| Text.DecimalStringInjective | OrderHandling.py:142 | two numbers print identically iff they are equal, so an exact string lookup on `OrderNumber` identifies one number |
| Text.FiveDigitNumeral | OrderHandling.py:210 | a number drawn from 10000..99999 prints as exactly five digits |
| Text.LowerOfUpper | OrderHandling.py:226 | lowering an uppercased text gives the lowered original, so the upper-cased `ProductID` stored in an order still matches its product ignoring case |
| Store.FindSpec | GetProductInformation.py:243 | looking up a name in a record finds something iff the record has an attribute of that name, and what it finds is that attribute's value |
| Store.StringAttr | GetProductInformation.py:243 | `record[name]['S']` succeeds iff the record has the attribute as a string. A missing attribute raises `KeyError(name)`, a number attribute `KeyError('S')` |
| Store.NumberAttr | GetProductInformation.py:139 | `record[name]['N']` succeeds iff the record has the attribute as a number. A missing attribute raises `KeyError(name)`, a string attribute `KeyError('N')` |
| Store.AttributeLine | GetProductInformation.py:247 | the line for one attribute is its name, `: `, its value's text and the record separator, in that order |
| Store.Render | GetProductInformation.py:246-247 | the rendering of a record is empty iff the record has no attributes, and otherwise ends with the record separator |
| Store.RenderConcat | GetProductInformation.py:246-247 | rendering distributes over concatenation of attribute lists, so a reply is the attribute lines one after another in iteration order |
| Store.RenderShowsAttribute | OrderHandling.py:145-146 | every attribute of the selected record appears as its own `key: value` line, between the lines of the attributes before it and those after it |
| Store.LastWhere | GetProductInformation.py:240-244 | the scan raises iff some record lacks the attribute as a string, and then only `KeyError` on the attribute's name or on the type tag `S`. Otherwise it yields the empty record iff no record matches, and else a matching record after which no record matches |
| Store.LastWhereSelects | OrderHandling.py:139-143 | when record i matches and no later record does, the scan yields record i: the last match wins |
| Lex.SlotText | GetProductInformation.py:100-101 | `str(try_ex(...))` of a slot is the slot's value when it is filled, and the text "None" when it is absent or null |
| Lex.ParseFloat | GetProductInformation.py:103 | `float(text)` succeeds exactly when Python's `float` accepts the text and yields its value. Otherwise it raises `ValueError` carrying the text |
| Lex.IsDialog | GetProductInformation.py:125 | a request is in the dialog phase exactly when its `invocationSource` is `DialogCodeHook`; every handler tests this before it consults a table |
| Lex.SlotFloat | GetProductInformation.py:102-105 | `float()` of a price slot raises `TypeError` iff the slot is absent or null. It raises `ValueError` with the slot's text when `float` rejects it, and otherwise yields what `float` makes of the text |
| Lex.SessionWith | GetProductInformation.py:114-123 | the session returned holds the handler's serialised query under its key |
| Lex.SessionWithKeepsOthers | GetProductInformation.py:114-123 | the query is stored under its key, every other incoming session attribute is returned unchanged, and a null session yields only the query |
| Lex.Fulfilled | OrderHandling.py:42-52 | `close(..., 'Fulfilled', ...)` is a fulfilled plain-text close carrying exactly the given session and content |
| Lex.OrFallback | GetProductInformation.py:142-143 | an empty reply becomes the fallback text "No items for that criteria found!", and a non-empty one is kept |
| Lex.BarredReplyIsNotFallback | GetProductInformation.py:142-143 | a reply ending with the record separator is never the fallback text |
| ProductInformation.NormalizeCategory | GetProductInformation.py:107-112 | the category is either kept verbatim or mapped to one of the catalogue's names PCs, Accessories or Printers. It changes only when its lowered form is one of the three aliases |
| ProductInformation.NormalizeCategoryTable | GetProductInformation.py:107-112 | "computers", "accessories" and "printers", in any letter case, become PCs, Accessories and Printers; any other text passes through unchanged |
| ProductInformation.NormalizeCategoryIgnoresCase | GetProductInformation.py:107-112 | spellings that differ only in letter case normalise to the same name, unless neither is an alias |
| ProductInformation.NormalizeCategoryIdempotent | GetProductInformation.py:107-112 | normalising an already normalised category changes nothing |
| ProductInformation.LineText | GetProductInformation.py:140 | a printed product is exactly the name, ": $" and the price, followed in the main listing by " Product ID: " and the identifier, and then by the record separator, with nothing else in between (the compare listing at line 198 prints the same without the identifier part) |
| ProductInformation.ListingLine | GetProductInformation.py:140 | printing a product reads its name and price, and in the main listing its identifier. It succeeds iff those are a string, a number and a string; the compare listing never reads the identifier. Otherwise it raises `KeyError`. The line is the printed form of exactly those attributes |
| ProductInformation.ListingEntry | GetProductInformation.py:139-140 | a product of another category adds nothing once its category is read, and a product that adds text has exactly the wanted category and a line ending with the separator. Errors are only `KeyError` and `ValueError` |
| ProductInformation.ListingScan | GetProductInformation.py:137-140 | a listing scan can fail only with `KeyError` (missing or mistyped attribute) or `ValueError` (unparsable price) |
| ProductInformation.Lines | GetProductInformation.py:140 | a non-empty listing ends with the record separator |
| ProductInformation.MatchingSelectsExactly | GetProductInformation.py:138-139 | a product is listed iff it is in the catalogue, has exactly the normalised category and has a price strictly between the bounds |
| ProductInformation.BoundaryPriceExcluded | GetProductInformation.py:139 | a product whose price parses and equals either bound is never listed |
| ProductInformation.ListingEntryOfListable | GetProductInformation.py:139-140 | one pass of the scan loop succeeds iff the product is readable where the loop reads it: the category always, the price in the wanted category, the printed attributes inside the bounds. It then adds the listing line when the product is wanted and nothing otherwise |
| ProductInformation.ListingScanFails | GetProductInformation.py:137-140 | the scan loop raises iff some product is not readable where the loop reads it |
| ProductInformation.ListingScanPrintsMatches | GetProductInformation.py:137-140 | when the scan does not raise, it prints exactly the wanted products, in scan order, each in its listing format (with the identifier for `GetProductInfo`, without it for `CompareProducts`) |
| ProductInformation.ListingFallback | GetProductInformation.py:142-143 | the listing reply is the fallback text iff no product is wanted |
| ProductInformation.ListingHandler | GetProductInformation.py:98-152 | a listing handler raises whenever a price slot does not parse, in either phase. In the dialog phase it succeeds iff both parse, and then delegates. A successful answer delegates iff Lex is collecting slots, and otherwise closes fulfilled with plain text. It raises only `TypeError`, `ValueError` or `KeyError`, never the dispatcher's error |
| ProductInformation.ListingReply | GetProductInformation.py:137-152 | at fulfilment with parsable prices, the handler succeeds iff the catalogue is readable where the loop reads it. The reply is then the printed wanted products, or exactly the fallback text iff there are none |
| ProductInformation.ListingDialogDelegates | GetProductInformation.py:100-126 | in the dialog phase the outcome does not depend on the catalogue. It is a delegation with the incoming slots when both prices parse, and an error otherwise |
| ProductInformation.GetProductInformation | GetProductInformation.py:98-152 | `GetProductInfo` raises whenever a price slot does not parse. In the dialog phase it delegates iff both parse. At fulfilment with parsable prices it succeeds iff the main catalogue is readable, and then replies with the wanted products printed with their identifiers, or the fallback text |
| ProductInformation.CompareProducts | GetProductInformation.py:156-211 | `CompareProducts` raises whenever a price slot does not parse. In the dialog phase it delegates iff both parse. At fulfilment with parsable prices it succeeds iff the comparison catalogue is readable, and then replies with the wanted products printed without identifiers, or the fallback text |
| ProductInformation.ProductDetails | GetProductInformation.py:214-259 | the details handler delegates iff Lex is collecting slots, and otherwise closes fulfilled. It can raise only `KeyError` on `product_id` or on the type tag `S` |
| ProductInformation.ProductDetailsDialogDelegates | GetProductInformation.py:219-228 | in the dialog phase the details handler ignores the catalogue and delegates with the incoming slots, the product query added to the session |
| ProductInformation.ProductDetailsReply | GetProductInformation.py:240-250 | the reply renders the last record whose lowered identifier equals the slot, and is the fallback text iff no record matches |
| ProductInformation.ProductDetailsCapitalSlot | GetProductInformation.py:243 | a `ProductID` slot holding any capital letter never matches, so the reply is the fallback text |
| ProductInformation.DispatchProducts | GetProductInformation.py:265-282 | the dispatcher raises for an intent name iff it is not one of the three product intents. `GetProductInfo` and `SpecificProductDetails` are answered from the main catalogue, `CompareProducts` from the comparison catalogue. Every answer delegates iff in the dialog phase and otherwise closes fulfilled |
| OrderHandling.CheckOrder | OrderHandling.py:114-158 | the status handler delegates iff Lex is collecting slots, and otherwise closes fulfilled. It can raise only `KeyError` on `OrderNumber` or on the type tag `S` |
| OrderHandling.CheckOrderDialogDelegates | OrderHandling.py:119-128 | in the dialog phase the status handler ignores the order table and delegates with the incoming slots, the order query added to the session |
| OrderHandling.CheckOrderReply | OrderHandling.py:139-149 | the reply renders the last order whose number text equals the slot exactly, and is the fallback text iff no order matches |
| OrderHandling.OrderRecord | OrderHandling.py:220-228 | an inserted order has five string attributes, and its `OrderNumber` reads back as the number's decimal text |
| OrderHandling.OrderRecordFields | OrderHandling.py:220-228 | an inserted order reads back with the number's decimal text, the timestamp, the product name, status "In Transit" and the given product identifier |
| OrderHandling.OrderNumberOf | OrderHandling.py:202-205 | an order without `OrderNumber` contributes no number. An order whose `OrderNumber` text `int` accepts contributes that value. Only an order whose text `int` rejects raises, and then `ValueError` |
| OrderHandling.ExistingNumbers | OrderHandling.py:201-205 | the uniqueness scan succeeds iff every order's number is readable, yields at most one number per order, and fails only with `ValueError` |
| OrderHandling.ExistingMembers | OrderHandling.py:201-205 | a number is among those the uniqueness scan reads iff some order carries it as its `OrderNumber`, so "not among the existing numbers" means no order holds it |
| OrderHandling.ExistingNumbersAfterInsert | OrderHandling.py:201-205 | after an order is inserted, the next uniqueness scan reads exactly the old numbers followed by the new one |
| OrderHandling.ExistingAfterAppend | OrderHandling.py:201-205 | appending orders whose numbers read back as a list appends exactly that list to what the scan reads |
| OrderHandling.ChooseOrderNumber | OrderHandling.py:208-212 | the sampling loop ends with a 5-digit number not already taken |
| OrderHandling.ShortListLeavesFreeNumber | OrderHandling.py:209-212 | with fewer than 90000 numbers taken, some 5-digit number is free, so the sampling loop can end |
| OrderHandling.Inventory | OrderHandling.py:193 | `int(product['inventory']['N'])` succeeds iff the product has a number attribute `inventory` whose text `int` accepts, and yields that value. Otherwise it raises `KeyError` or `ValueError` |
| OrderHandling.ReadFailure | OrderHandling.py:192-193 | reading a product in the placement loop raises nothing iff its name and identifier are strings and, when it matches the slot, its inventory is readable. What it raises is `KeyError` or `ValueError` |
| OrderHandling.Placed | OrderHandling.py:193 | every product an order is placed for is readable, matches the slot ignoring case and has positive inventory |
| OrderHandling.PlacedSelectsExactly | OrderHandling.py:191-195 | an order is placed for a product iff it is in the scan, matches the slot ignoring case and has positive inventory |
| OrderHandling.SuccessMessage | OrderHandling.py:243-244 | the message for a placed order opens with "Success! Your order for" and the product name, and ends with the order number and the closing sentence |
| OrderHandling.OutOfStockMessage | OrderHandling.py:247 | the out-of-stock message is exactly "No", the product name and "s in stock! Please try again at a later time.", with nothing in between |
| OrderHandling.Replies | OrderHandling.py:243-247 | once an order is placed, the reply text is not empty |
| OrderHandling.NewOrders | OrderHandling.py:220-228 | one order is inserted per issued number, and the k-th reads back with the k-th number's decimal text |
| OrderHandling.ProducedInStock | OrderHandling.py:192-244 | for a requested product in stock, exactly one order is appended (the chosen number, the clock reading, the item name, the uppercased slot) and the success message is added |
| OrderHandling.IssuedAfterChoice | OrderHandling.py:198-222 | choosing a number the current order table does not hold keeps every issued number fresh, and the next uniqueness scan reads it |
| OrderHandling.ReachedNotInStock | OrderHandling.py:246-247 | for a readable product no order is placed for, the order table and the issued numbers stay as they were, and the reply grows by the out-of-stock message exactly when the product was requested |
| OrderHandling.InsertOrder | OrderHandling.py:197-228 | the in-stock branch raises `AttributeError` iff an order was already inserted, since the client was rebound to a resource. The first time, it fails only on an unreadable order table or when no number is free, and otherwise inserts one freshly numbered order |
| OrderHandling.PlaceStep | OrderHandling.py:191-247 | one product step raises `AttributeError` iff the product is readable, requested and in stock after an order was already inserted. A readable product not requested or not in stock never raises and leaves the table and the issued numbers as they were. On success it extends the reached state, with at most one issued number. A failure leaves the table as it was |
| OrderHandling.PlaceAll | OrderHandling.py:189-247 | the placement loop keeps every earlier order and inserts at most one. After an `AttributeError`, a requested product in stock follows the one whose order stays in the table. Over readable tables with numbers free, it succeeds iff at most one requested product is in stock. Over a readable product scan with no requested product in stock, it succeeds whatever the order table holds, inserting nothing |
| OrderHandling.PlaceOrder | OrderHandling.py:164-263 | in the dialog phase the handler delegates and inserts nothing. At fulfilment the new table is the old one plus one "In Transit" order per requested in-stock product, and there is at most one such product. The order carries an unused 5-digit number. The reply is the concatenated messages or the fallback. Over readable tables with fewer than 90000 orders it succeeds iff at most one requested product is in stock, and otherwise raises `AttributeError`. Over a readable product scan with nothing requested in stock it succeeds on any order table, with the out-of-stock messages or the fallback, and inserts nothing |
| OrderHandling.SecondInStockMatchRaises | OrderHandling.py:198-218 | with two or more requested products in stock, over readable tables with numbers free, the handler raises `AttributeError` and the table keeps exactly one new order |
| OrderHandling.RepliesEmptyIffNoneRequested | OrderHandling.py:243-247 | the placement messages are empty iff no scanned product matches the slot ignoring case |
| OrderHandling.RepliesEndLikeReply | OrderHandling.py:243-247 | non-empty placement messages end with the end of a success or an out-of-stock message |
| OrderHandling.OrderReplyFallback | OrderHandling.py:253-254 | the order reply is the fallback text iff no product matches the slot, and then no order is inserted |
| OrderHandling.NewOrderFields | OrderHandling.py:220-228 | the k-th inserted order carries the k-th issued number as five digits, the k-th timestamp, the k-th placed product's name and status "In Transit". Its `ProductID` is the slot uppercased, equal to that product's identifier ignoring case |
| OrderHandling.PlacementKeepsNumbersUnique | OrderHandling.py:207-212 | if the order numbers were distinct before placement, they are distinct after it, and they are the old numbers followed by the issued ones |
| OrderHandling.PlacedOrderIsTrackable | OrderHandling.py:141-143 | checking the status of a just-issued number on the extended table answers with the order inserted for it |
| OrderHandling.DispatchOrders | OrderHandling.py:269-284 | the dispatcher raises iff the intent is neither `CheckOrderStatus` nor `PlaceOrder`. `CheckOrderStatus` is the status handler on the unchanged table, and `PlaceOrder` behaves as the placement handler. Every answer delegates iff in the dialog phase and otherwise closes fulfilled |

## Left out

- DynamoDB I/O (`boto3` scans and `put_item`): tables are sequences passed in, and the extended order table is returned. Scan pagination is not modelled; a scan is taken to return the whole table.
- Consistency: the read-then-write race between concurrent `place_order` calls is not modelled. One invocation scans the order table at most once, before its only insert, so the scan sees the table as passed in.
- `datetime.datetime.now()`: becomes a `clock` parameter indexed by the order's position in the invocation.
- `float()` and `json.dumps`: become fields of a `Builtins` parameter, because their text formats are Python's own. `float` yields a `real` in the model, so the special values Python's `float` accepts ("nan", "inf" and their variants) have no counterpart; a price slot or price holding one is outside the model. `int()` is modelled only for an optional sign and ASCII digits; Python's surrounding whitespace and digit-group underscores are not accepted.
- Case mapping: `str.lower`/`str.upper` are modelled for ASCII letters only.
- Attribute values: only the DynamoDB `S` and `N` types are modelled. `list(value.values())[0]` reads the one typed value of an attribute.
- Response builders: `elicit_slot` and `confirm_intent` are never called by any handler; they appear only as dialog-action constructors. `close` and `delegate` are the `Fulfilled` function and the `Delegate` constructor.
- Unused helpers: `safe_int`, `isvalid_date`, `get_day_difference` and `add_days` are not modelled, since nothing calls them.
- Logging and `lambda_handler`: the debug logging and the time-zone setting are not modelled. This includes the reads of `userId` and the bot name, which could raise on a malformed event.
- The disabled inventory decrement is not modelled: `PlaceOrder` never writes the product table.
- OrderHandling.PlaceOrder: the sampling loop's endless spin when every 5-digit number is taken is modelled as the error `SamplingDiverges`, not as non-termination.
- OrderHandling.PlaceOrder: when a requested product is in stock, success is characterised only over readable tables with fewer than 90000 orders. On other tables the contract states the possible error kinds, not which product raises first.
- OrderHandling.PlacedOrderIsTrackable: assumes a scanned order returns its attributes in the order `put_item` was given them. DynamoDB does not promise any attribute order. The lookup of the order and the set of lines rendered do not depend on that order, but the exact reply text does.
- Store.LastWhere: states the two `KeyError` forms a scan can raise, not which record raised.

=== FILE: lex.dfy ===
/** The dialog platform's side of the conversation: the intent request a
    handler receives, the four dialog-action shapes it can answer with, and
    the few Python built-ins whose behaviour the model takes as given. */
module Lex {
  import opened Outcomes

  /** The structured query each handler records in the session (before it
      is serialised with `json.dumps`). */
  datatype Query =
    | ProductQuery(category: string, minPrice: real, maxPrice: real)
    | ProductSearched(productId: string)
    | OrderQuery(orderNumber: string)
    | ProdQuery(prodName: string)

  /** Built-ins outside the model: `float(text)` (`None` where it raises
      `ValueError`) and `json.dumps` of a query. */
  datatype Builtins = Builtins(float: string -> Option<real>, jsonDumps: Query -> string)

  /** The fields of the incoming event the handlers read. A slot the
      platform has not filled is absent or `None`. */
  datatype IntentRequest = IntentRequest(
    intentName: string,
    slots: map<string, Option<string>>,
    invocationSource: string,
    sessionAttributes: Option<map<string, string>>)

  datatype Message = Message(contentType: string, content: string)

  /** The four dialog actions; `elicit_slot`, `confirm_intent`, `close` and
      `delegate` build exactly these, paired with the session attributes. */
  datatype DialogAction =
    | ElicitSlot(intentName: string, slots: map<string, Option<string>>, slotToElicit: string, message: Message)
    | ConfirmIntent(intentName: string, slots: map<string, Option<string>>, message: Message)
    | Close(fulfillmentState: string, message: Message)
    | Delegate(slots: map<string, Option<string>>)

  datatype Response = Response(sessionAttributes: map<string, string>, dialogAction: DialogAction)

  /** The reply of every handler whose scan found nothing to report. */
  const NoMatch := "No items for that criteria found!"

  /** The platform is still collecting slots. */
  predicate IsDialog(req: IntentRequest) {
    req.invocationSource == "DialogCodeHook"
  }

  /** `str(try_ex(lambda: slots[name]))`: a filled slot reads as its value,
      and a slot that is absent or `None` reads as the text "None". */
  function SlotText(req: IntentRequest, name: string): (r: string)
    ensures name in req.slots && req.slots[name].Some? ==> r == req.slots[name].value
    ensures (name !in req.slots || req.slots[name].None?) ==> r == "None"
  {
    if name in req.slots && req.slots[name].Some? then req.slots[name].value else "None"
  }

  /** `float(text)`: the value `float` makes of the text, or `ValueError`
      carrying the text when `float` rejects it. */
  function ParseFloat(text: string, b: Builtins): (r: Result<real>)
    ensures r.Ok? <==> b.float(text).Some?
    ensures r.Ok? ==> b.float(text) == Some(r.value)
    ensures r.Err? ==> r.error == ValueError(text)
  {
    match b.float(text)
    case Some(x) => Ok(x)
    case None => Err(ValueError(text))
  }

  /** `float(try_ex(lambda: slots[name]))`: an unset slot is `float(None)`,
      which raises `TypeError`; a filled slot `float` rejects raises
      `ValueError` with its text. */
  function SlotFloat(req: IntentRequest, name: string, b: Builtins): (r: Result<real>)
    ensures r == Err(TypeError) <==> name !in req.slots || req.slots[name].None?
    ensures r.Err? ==> r.error.TypeError? || r.error == ValueError(SlotText(req, name))
    ensures r.Ok? ==> b.float(SlotText(req, name)) == Some(r.value)
  {
    if name in req.slots && req.slots[name].Some? then ParseFloat(req.slots[name].value, b) else Err(TypeError)
  }

  /** The incoming session attributes, `{}` when the platform sent null,
      with the handler's serialised query stored under `key`. */
  function SessionWith(req: IntentRequest, key: string, query: string): (r: map<string, string>)
    ensures key in r && r[key] == query
  {
    var session := match req.sessionAttributes
      case Some(attributes) => attributes
      case None => map[];
    session[key := query]
  }

  /** The handler's query is stored under its key and every other incoming
      session attribute is passed back unchanged; a null session yields only
      the query. */
  lemma SessionWithKeepsOthers(req: IntentRequest, key: string, query: string)
    ensures var session := SessionWith(req, key, query);
            && key in session && session[key] == query
            && (req.sessionAttributes.None? ==> session.Keys == {key})
            && (req.sessionAttributes.Some? ==>
                  session.Keys == req.sessionAttributes.value.Keys + {key} &&
                  forall k :: k in req.sessionAttributes.value && k != key ==> session[k] == req.sessionAttributes.value[k])
  {
  }

  /** `close(session, 'Fulfilled', {'contentType': 'PlainText', 'content': content})`:
      a fulfilled plain-text close carrying the session and the content. */
  function Fulfilled(session: map<string, string>, content: string): (r: Response)
    ensures ClosesFulfilled(r) && r.dialogAction.message.content == content && r.sessionAttributes == session
  {
    Response(session, Close("Fulfilled", Message("PlainText", content)))
  }

  /** A close response in the only shape the handlers produce. */
  predicate ClosesFulfilled(r: Response) {
    r.dialogAction.Close? && r.dialogAction.fulfillmentState == "Fulfilled" &&
    r.dialogAction.message.contentType == "PlainText"
  }

  /** `if not content: content += NoMatch`. */
  function OrFallback(content: string): (r: string)
    ensures content == "" ==> r == NoMatch
    ensures content != "" ==> r == content
  {
    if content == "" then NoMatch else content
  }

  /** A reply that ends with the record separator " | " is never the
      fallback text, which ends with "!". */
  lemma BarredReplyIsNotFallback(s: string)
    requires |s| >= 3 && s[|s| - 3..] == " | "
    ensures s != NoMatch
  {
    assert s[|s| - 1] == ' ';
  }
}

=== FILE: order_handling.dfy ===
/** The order bot: looking an order up by number (`CheckOrderStatus`) and
    placing an order for a product (`PlaceOrder`). The scanned product and
    order tables are passed in; placing orders returns the extended order
    table. */
module OrderHandling {
  import opened Outcomes
  import opened Text
  import opened Store
  import opened Lex

  /** Order numbers are compared exactly as stored. */
  function Verbatim(s: string): string {
    s
  }

  // ---- Order status ----

  /** `check_order`: the last order whose `OrderNumber` string equals the
      slot, rendered attribute by attribute. */
  function CheckOrder(req: IntentRequest, orders: seq<Item>, b: Builtins): (r: Result<Response>)
    ensures r.Ok? ==> (r.value.dialogAction.Delegate? <==> IsDialog(req))
    ensures r.Ok? && !IsDialog(req) ==> ClosesFulfilled(r.value)
    ensures r.Err? ==> !IsDialog(req) && (r.error == KeyError("OrderNumber") || r.error == KeyError("S"))
  {
    var orderNumber := SlotText(req, "OrderNumber");
    var session := SessionWith(req, "orderQuery", b.jsonDumps(OrderQuery(orderNumber)));
    if IsDialog(req) then
      Ok(Response(session, Delegate(req.slots)))
    else
      var details :- LastWhere(orders, "OrderNumber", Verbatim, orderNumber);
      Ok(Fulfilled(session, OrFallback(Render(details))))
  }

  predicate AllNumbered(orders: seq<Item>) {
    forall i :: 0 <= i < |orders| ==> StringAttr(orders[i], "OrderNumber").Ok?
  }

  function CheckSession(req: IntentRequest, b: Builtins): map<string, string> {
    SessionWith(req, "orderQuery", b.jsonDumps(OrderQuery(SlotText(req, "OrderNumber"))))
  }

  /** While slots are being collected the order table is not consulted:
      the answer is a delegation carrying the incoming slots, with the query
      added to the session. */
  lemma CheckOrderDialogDelegates(req: IntentRequest, o1: seq<Item>, o2: seq<Item>, b: Builtins)
    requires IsDialog(req)
    ensures CheckOrder(req, o1, b) == CheckOrder(req, o2, b)
    ensures CheckOrder(req, o1, b) == Ok(Response(CheckSession(req, b), Delegate(req.slots)))
  {
  }

  /** Last match wins: the reply renders every attribute of the last order
      whose number equals the slot exactly, and is the fallback text exactly
      when no order has that number. */
  lemma CheckOrderReply(req: IntentRequest, orders: seq<Item>, b: Builtins)
    requires !IsDialog(req) && AllNumbered(orders)
    ensures var orderNumber := SlotText(req, "OrderNumber");
            && ((forall i :: 0 <= i < |orders| ==> !KeyMatches(orders[i], "OrderNumber", Verbatim, orderNumber)) <==>
                CheckOrder(req, orders, b) == Ok(Fulfilled(CheckSession(req, b), NoMatch)))
            && (forall i :: (0 <= i < |orders| && KeyMatches(orders[i], "OrderNumber", Verbatim, orderNumber) &&
                             (forall j :: i < j < |orders| ==> !KeyMatches(orders[j], "OrderNumber", Verbatim, orderNumber))) ==>
                  CheckOrder(req, orders, b) == Ok(Fulfilled(CheckSession(req, b), Render(orders[i]))))
  {
    var orderNumber := SlotText(req, "OrderNumber");
    var found := LastWhere(orders, "OrderNumber", Verbatim, orderNumber);
    forall i | 0 <= i < |orders| && KeyMatches(orders[i], "OrderNumber", Verbatim, orderNumber) &&
               (forall j :: i < j < |orders| ==> !KeyMatches(orders[j], "OrderNumber", Verbatim, orderNumber))
      ensures CheckOrder(req, orders, b) == Ok(Fulfilled(CheckSession(req, b), Render(orders[i])))
    {
      LastWhereSelects(orders, "OrderNumber", Verbatim, orderNumber, i);
    }
    if found.value != [] {
      BarredReplyIsNotFallback(Render(found.value));
    }
  }

  // ---- The order record and the numbers already taken ----

  const InTransit := "In Transit"

  /** The record `place_order` puts into the order table: five string
      attributes, the first the order number's decimal text. */
  function OrderRecord(number: nat, timestamp: string, product: string, productId: string): (r: Item)
    ensures |r| == 5 && forall i :: 0 <= i < |r| ==> r[i].value.S?
    ensures StringAttr(r, "OrderNumber") == Ok(DecimalString(number))
  {
    [ Attribute("OrderNumber", S(DecimalString(number))),
      Attribute("OrderTimestamp", S(timestamp)),
      Attribute("Product", S(product)),
      Attribute("Status", S(InTransit)),
      Attribute("ProductID", S(productId)) ]
  }

  /** Reading an inserted record back gives the values it was built from. */
  lemma OrderRecordFields(number: nat, timestamp: string, product: string, productId: string)
    ensures var order := OrderRecord(number, timestamp, product, productId);
            && StringAttr(order, "OrderNumber") == Ok(DecimalString(number))
            && StringAttr(order, "OrderTimestamp") == Ok(timestamp)
            && StringAttr(order, "Product") == Ok(product)
            && StringAttr(order, "Status") == Ok(InTransit)
            && StringAttr(order, "ProductID") == Ok(productId)
  {
    var order := OrderRecord(number, timestamp, product, productId);
    var tail1 := order[1..];
    var tail2 := tail1[1..];
    var tail3 := tail2[1..];
    var tail4 := tail3[1..];
    assert tail1[0] == Attribute("OrderTimestamp", S(timestamp));
    assert tail2[0] == Attribute("Product", S(product));
    assert tail3[0] == Attribute("Status", S(InTransit));
    assert tail4 == [Attribute("ProductID", S(productId))];
    assert "OrderTimestamp"[5] != "OrderNumber"[5];
    assert Find(order, "OrderTimestamp") == Find(tail1, "OrderTimestamp");
    assert |"Product"| != |"OrderNumber"| && |"Product"| != |"OrderTimestamp"|;
    assert Find(order, "Product") == Find(tail1, "Product") == Find(tail2, "Product");
    assert "Status"[0] != "OrderNumber"[0] && "Status"[0] != "OrderTimestamp"[0] && "Status"[0] != "Product"[0];
    assert Find(order, "Status") == Find(tail1, "Status") == Find(tail2, "Status") == Find(tail3, "Status");
    assert "ProductID"[0] != "OrderNumber"[0] && "ProductID"[0] != "OrderTimestamp"[0];
    assert |"ProductID"| != |"Product"| && "ProductID"[0] != "Status"[0];
    assert Find(order, "ProductID") == Find(tail1, "ProductID") == Find(tail2, "ProductID")
        == Find(tail3, "ProductID") == Find(tail4, "ProductID");
  }

  /** The number of one order as the uniqueness scan reads it: `int()` of
      the first value of its `OrderNumber` attribute, if it has one. */
  function OrderNumberOf(order: Item): (r: Result<Option<int>>)
    ensures r == Ok(None) <==> Find(order, "OrderNumber").None?
    ensures r.Ok? <==> Find(order, "OrderNumber").None? || ParseInt(Find(order, "OrderNumber").value.text).Some?
    ensures Find(order, "OrderNumber").Some? && ParseInt(Find(order, "OrderNumber").value.text).Some? ==>
              r == Ok(ParseInt(Find(order, "OrderNumber").value.text))
    ensures r.Err? ==> r.error.ValueError?
    ensures r.Ok? && r.value.Some? ==> ParseInt(Find(order, "OrderNumber").value.text) == r.value
  {
    match Find(order, "OrderNumber")
    case None => Ok(None)
    case Some(v) =>
      match ParseInt(v.text)
      case None => Err(ValueError(v.text))
      case Some(n) => Ok(Some(n))
  }

  /** `existing_orders`: the numbers of all orders that have one, in scan order. */
  function ExistingNumbers(orders: seq<Item>): (r: Result<seq<int>>)
    ensures r.Ok? ==> |r.value| <= |orders|
    ensures r.Err? ==> r.error.ValueError?
    ensures r.Ok? <==> forall i :: 0 <= i < |orders| ==> OrderNumberOf(orders[i]).Ok?
    decreases |orders|
  {
    if orders == [] then Ok([])
    else
      assert forall i :: 0 <= i < |orders| - 1 ==> orders[..|orders| - 1][i] == orders[i];
      var earlier :- ExistingNumbers(orders[..|orders| - 1]);
      var number :- OrderNumberOf(orders[|orders| - 1]);
      Ok(if number.Some? then earlier + [number.value] else earlier)
  }

  /** The uniqueness scan reads exactly the numbers the orders carry: a
      number is among the existing ones iff some order holds it. */
  lemma {:induction false} ExistingMembers(orders: seq<Item>)
    requires ExistingNumbers(orders).Ok?
    ensures forall x :: x in ExistingNumbers(orders).value <==>
              exists i :: 0 <= i < |orders| && OrderNumberOf(orders[i]) == Ok(Some(x))
    decreases |orders|
  {
    if orders != [] {
      var front, last := orders[..|orders| - 1], orders[|orders| - 1];
      assert forall i :: 0 <= i < |front| ==> front[i] == orders[i];
      ExistingMembers(front);
      var earlier, number := ExistingNumbers(front).value, OrderNumberOf(last).value;
      assert ExistingNumbers(orders).value == if number.Some? then earlier + [number.value] else earlier;
      forall x | x in ExistingNumbers(orders).value
        ensures exists i :: 0 <= i < |orders| && OrderNumberOf(orders[i]) == Ok(Some(x))
      {
        if x !in earlier {
          assert OrderNumberOf(orders[|orders| - 1]) == Ok(Some(x));
        }
      }
      forall x | exists i :: 0 <= i < |orders| && OrderNumberOf(orders[i]) == Ok(Some(x))
        ensures x in ExistingNumbers(orders).value
      {
        var i :| 0 <= i < |orders| && OrderNumberOf(orders[i]) == Ok(Some(x));
        if i < |front| {
          assert OrderNumberOf(front[i]) == Ok(Some(x));
        }
      }
    }
  }

  /** Inserting an order adds exactly its number to what the next
      uniqueness scan reads (`int(str(n)) == n`). */
  lemma ExistingNumbersAfterInsert(orders: seq<Item>, n: nat, timestamp: string, product: string, productId: string)
    requires ExistingNumbers(orders).Ok?
    ensures ExistingNumbers(orders + [OrderRecord(n, timestamp, product, productId)]) == Ok(ExistingNumbers(orders).value + [n])
  {
    var table := orders + [OrderRecord(n, timestamp, product, productId)];
    assert table[..|table| - 1] == orders;
    ParseDecimalRoundTrip(n);
  }

  // ---- Choosing an order number ----

  /** Every 5-digit number is already taken. */
  predicate Exhausted(existing: seq<int>) {
    forall n :: 10000 <= n <= 99999 ==> n in existing
  }

  /** The sampling loop `while True: n = random.randint(10000, 99999)`: it
      ends with some 5-digit number not yet taken, and it ends only if there
      is one. */
  method ChooseOrderNumber(existing: seq<int>) returns (n: nat)
    requires !Exhausted(existing)
    ensures 10000 <= n <= 99999 && n !in existing
  {
    n :| 10000 <= n <= 99999 && n !in existing;
  }

  /** The integers in [lo, hi). */
  function Interval(lo: int, hi: int): (r: set<int>)
    ensures forall x :: x in r <==> lo <= x < hi
    ensures lo <= hi ==> |r| == hi - lo
    decreases hi - lo
  {
    if lo >= hi then {} else Interval(lo, hi - 1) + {hi - 1}
  }

  lemma {:induction false} ElementsSize(s: seq<int>)
    ensures |set x | x in s| <= |s|
    decreases |s|
  {
    if s != [] {
      var init := s[..|s| - 1];
      ElementsSize(init);
      assert (set x | x in s) == (set x | x in init) + {s[|s| - 1]} by {
        assert s == init + [s[|s| - 1]];
      }
    }
  }

  /** Fewer taken numbers than [lo, hi) holds leave one of them free. */
  lemma FewTakenLeaveOneFree(existing: seq<int>, lo: int, hi: int)
    requires lo <= hi && |existing| < hi - lo
    ensures exists x :: lo <= x < hi && x !in existing
  {
    var range := Interval(lo, hi);
    var taken := set x | x in existing;
    ElementsSize(existing);
    var missing := range - taken;
    assert |missing| == |range| - |range * taken|;
    assert |taken| == |taken - range| + |taken * range|;
    assert range * taken == taken * range;
    assert |missing| > 0;
    var x :| x in missing;
    assert lo <= x < hi && x !in existing;
  }

  /** Fewer than 90000 taken numbers always leave a 5-digit number free, so
      the sampling loop then terminates. */
  lemma ShortListLeavesFreeNumber(existing: seq<int>)
    requires |existing| < 90000
    ensures !Exhausted(existing)
  {
    var lo, hi := 10000, 100000;
    FewTakenLeaveOneFree(existing, lo, hi);
  }

  // ---- Order placement, stated on the scanned products ----

  /** `prod_name`: the `ProductName` slot as text. */
  function ProductName(req: IntentRequest): string {
    SlotText(req, "ProductName")
  }

  /** `int(product['inventory']['N'])`: a missing or string-typed inventory
      raises `KeyError`, a text `int` rejects raises `ValueError`. */
  function Inventory(p: Item): (r: Result<int>)
    ensures r.Err? ==> r.error.KeyError? || r.error.ValueError?
    ensures r.Ok? <==> NumberAttr(p, "inventory").Ok? && ParseInt(NumberAttr(p, "inventory").value).Some?
    ensures r.Ok? ==> ParseInt(NumberAttr(p, "inventory").value) == Some(r.value)
  {
    var text :- NumberAttr(p, "inventory");
    match ParseInt(text)
    case None => Err(ValueError(text))
    case Some(n) => Ok(n)
  }

  /** Every attribute the placement loop reads from this product is there:
      the name and identifier always, the inventory when the identifier
      matches the slot. */
  predicate Orderable(p: Item, slot: string) {
    && StringAttr(p, "item").Ok?
    && StringAttr(p, "product_id").Ok?
    && (Lower(StringAttr(p, "product_id").value) == Lower(slot) ==> Inventory(p).Ok?)
  }

  predicate AllOrderable(ps: seq<Item>, slot: string) {
    forall i :: 0 <= i < |ps| ==> Orderable(ps[i], slot)
  }

  function ItemName(p: Item): string
    requires StringAttr(p, "item").Ok?
  {
    StringAttr(p, "item").value
  }

  /** The product is the one asked for, ignoring case on both sides. */
  predicate Requested(p: Item, slot: string)
    requires Orderable(p, slot)
  {
    Lower(StringAttr(p, "product_id").value) == Lower(slot)
  }

  predicate InStock(p: Item, slot: string)
    requires Orderable(p, slot)
  {
    Requested(p, slot) && Inventory(p).value > 0
  }

  /** The products an order is placed for: the requested ones in stock, in
      scan order. */
  function Placed(ps: seq<Item>, slot: string): (r: seq<Item>)
    requires AllOrderable(ps, slot)
    ensures forall k :: 0 <= k < |r| ==> Orderable(r[k], slot) && InStock(r[k], slot)
    ensures |r| <= |ps|
    decreases |ps|
  {
    if ps == [] then []
    else
      var earlier := Placed(ps[..|ps| - 1], slot);
      if InStock(ps[|ps| - 1], slot) then earlier + [ps[|ps| - 1]] else earlier
  }

  const ThankYou := " to check the progress of your order. Thank you!"

  const TryLater := "s in stock! Please try again at a later time."

  /** The message for a placed order: it names the product and ends with the
      order number, followed by the closing sentence. */
  function SuccessMessage(item: string, number: nat): (r: string)
    ensures StartsWith(r, "Success! Your order for " + item)
    ensures EndsWith(r, DecimalString(number) + ThankYou)
  {
    var head := "Success! Your order for " + item;
    var middle := "has been placed. " + "Use the order number ";
    var tail := DecimalString(number) + ThankYou;
    ConcatEnds(head + middle, tail);
    StartsWithShorter(head + middle + tail, head, middle);
    head + middle + tail
  }

  /** The message for a requested product without stock: it names the
      product, pluralised with an "s". */
  function OutOfStockMessage(item: string): (r: string)
    ensures StartsWith(r, "No " + item) && EndsWith(r, TryLater)
    ensures |r| == 3 + |item| + |TryLater|
  {
    ConcatEnds("No " + item, TryLater);
    "No " + item + TryLater
  }

  /** The reply text, given the order numbers issued in scan order: a success
      message per order placed, an out-of-stock message per requested product
      without stock, nothing for other products. */
  function Replies(ps: seq<Item>, slot: string, numbers: seq<nat>): (r: string)
    requires AllOrderable(ps, slot) && |numbers| == |Placed(ps, slot)|
    ensures numbers != [] ==> r != ""
    decreases |ps|
  {
    if ps == [] then ""
    else
      var init := ps[..|ps| - 1];
      var p := ps[|ps| - 1];
      if InStock(p, slot) then
        Replies(init, slot, numbers[..|numbers| - 1]) + SuccessMessage(ItemName(p), numbers[|numbers| - 1])
      else if Requested(p, slot) then
        Replies(init, slot, numbers) + OutOfStockMessage(ItemName(p))
      else
        Replies(init, slot, numbers)
  }

  /** The orders inserted, given the numbers issued: the k-th placed product
      gets the k-th number and the k-th timestamp read. */
  function NewOrders(ps: seq<Item>, slot: string, numbers: seq<nat>, clock: nat -> string): (r: seq<Item>)
    requires AllOrderable(ps, slot) && |numbers| == |Placed(ps, slot)|
    ensures |r| == |numbers|
    ensures forall k :: 0 <= k < |r| ==> StringAttr(r[k], "OrderNumber") == Ok(DecimalString(numbers[k]))
  {
    var placed := Placed(ps, slot);
    var r := seq<Item>(|numbers|, k requires 0 <= k < |numbers| => OrderRecord(numbers[k], clock(k), ItemName(placed[k]), Upper(slot)));
    assert forall k :: 0 <= k < |r| ==> r[k] == OrderRecord(numbers[k], clock(k), ItemName(placed[k]), Upper(slot));
    r
  }

  /** Each issued number is 5-digit, not taken before the invocation, and
      not issued earlier in it. */
  predicate Fresh(existing: seq<int>, numbers: seq<nat>) {
    forall k :: 0 <= k < |numbers| ==> 10000 <= numbers[k] <= 99999 && numbers[k] !in existing && numbers[k] !in numbers[..k]
  }

  function PlaceSession(req: IntentRequest, b: Builtins): map<string, string> {
    SessionWith(req, "prodQuery", b.jsonDumps(ProdQuery(ProductName(req))))
  }

  lemma AllOrderablePrefix(ps: seq<Item>, slot: string, i: nat)
    requires i <= |ps| && AllOrderable(ps, slot)
    ensures AllOrderable(ps[..i], slot)
  {
    forall j | 0 <= j < i
      ensures Orderable(ps[..i][j], slot)
    {
      assert ps[..i][j] == ps[j];
    }
  }

  lemma AppendOrderable(ps: seq<Item>, p: Item, slot: string)
    requires AllOrderable(ps, slot) && Orderable(p, slot)
    ensures AllOrderable(ps + [p], slot)
    ensures (ps + [p])[..|ps|] == ps && (ps + [p])[|ps|] == p
  {
    var qs := ps + [p];
    forall j | 0 <= j < |qs|
      ensures Orderable(qs[j], slot)
    {
      if j < |ps| {
        assert qs[j] == ps[j];
      }
    }
  }

  /** One more scanned product, in stock: it is placed with the next
      number, and its order and success message come last. */
  lemma PlacedInStock(ps: seq<Item>, p: Item, slot: string)
    requires AllOrderable(ps, slot) && Orderable(p, slot) && InStock(p, slot)
    ensures AllOrderable(ps + [p], slot)
    ensures Placed(ps + [p], slot) == Placed(ps, slot) + [p]
  {
    AppendOrderable(ps, p, slot);
  }

  lemma StepInStock(ps: seq<Item>, p: Item, slot: string, numbers: seq<nat>, n: nat, clock: nat -> string)
    requires AllOrderable(ps, slot) && Orderable(p, slot) && InStock(p, slot)
    requires |numbers| == |Placed(ps, slot)|
    ensures AllOrderable(ps + [p], slot)
    ensures Placed(ps + [p], slot) == Placed(ps, slot) + [p]
    ensures |numbers + [n]| == |Placed(ps + [p], slot)|
    ensures NewOrders(ps + [p], slot, numbers + [n], clock) ==
            NewOrders(ps, slot, numbers, clock) + [OrderRecord(n, clock(|numbers|), ItemName(p), Upper(slot))]
    ensures Replies(ps + [p], slot, numbers + [n]) == Replies(ps, slot, numbers) + SuccessMessage(ItemName(p), n)
  {
    PlacedInStock(ps, p, slot);
    StepInStockReplies(ps, p, slot, numbers, n);
    StepInStockOrders(ps, p, slot, numbers, n, clock);
  }

  lemma StepInStockReplies(ps: seq<Item>, p: Item, slot: string, numbers: seq<nat>, n: nat)
    requires AllOrderable(ps, slot) && Orderable(p, slot) && InStock(p, slot)
    requires |numbers| == |Placed(ps, slot)|
    ensures AllOrderable(ps + [p], slot) && |numbers + [n]| == |Placed(ps + [p], slot)|
    ensures Replies(ps + [p], slot, numbers + [n]) == Replies(ps, slot, numbers) + SuccessMessage(ItemName(p), n)
  {
    PlacedInStock(ps, p, slot);
    var ns := numbers + [n];
    assert ns[..|ns| - 1] == numbers;
  }

  lemma StepInStockOrders(ps: seq<Item>, p: Item, slot: string, numbers: seq<nat>, n: nat, clock: nat -> string)
    requires AllOrderable(ps, slot) && Orderable(p, slot) && InStock(p, slot)
    requires |numbers| == |Placed(ps, slot)|
    ensures AllOrderable(ps + [p], slot) && |numbers + [n]| == |Placed(ps + [p], slot)|
    ensures NewOrders(ps + [p], slot, numbers + [n], clock) ==
            NewOrders(ps, slot, numbers, clock) + [OrderRecord(n, clock(|numbers|), ItemName(p), Upper(slot))]
  {
    PlacedInStock(ps, p, slot);
    var qs := ps + [p];
    var ns := numbers + [n];
    var before := Placed(ps, slot);
    var after := Placed(qs, slot);
    var lhs := NewOrders(qs, slot, ns, clock);
    var rhs := NewOrders(ps, slot, numbers, clock) + [OrderRecord(n, clock(|numbers|), ItemName(p), Upper(slot))];
    assert |lhs| == |rhs|;
    forall k | 0 <= k < |lhs|
      ensures lhs[k] == rhs[k]
    {
      NewOrdersAt(qs, slot, ns, clock, k);
      if k < |numbers| {
        NewOrdersAt(ps, slot, numbers, clock, k);
        assert after[k] == before[k];
      }
    }
  }

  /** The k-th inserted order is built from the k-th number, the k-th clock
      reading and the k-th placed product. */
  lemma NewOrdersAt(ps: seq<Item>, slot: string, numbers: seq<nat>, clock: nat -> string, k: int)
    requires AllOrderable(ps, slot) && |numbers| == |Placed(ps, slot)| && 0 <= k < |numbers|
    ensures NewOrders(ps, slot, numbers, clock)[k] ==
            OrderRecord(numbers[k], clock(k), ItemName(Placed(ps, slot)[k]), Upper(slot))
  {
  }

  /** One more scanned product, not in stock: nothing is placed; an
      out-of-stock message comes last when it was the product asked for. */
  lemma StepNotInStock(ps: seq<Item>, p: Item, slot: string, numbers: seq<nat>, clock: nat -> string)
    requires AllOrderable(ps, slot) && Orderable(p, slot) && !InStock(p, slot)
    requires |numbers| == |Placed(ps, slot)|
    ensures AllOrderable(ps + [p], slot)
    ensures Placed(ps + [p], slot) == Placed(ps, slot)
    ensures NewOrders(ps + [p], slot, numbers, clock) == NewOrders(ps, slot, numbers, clock)
    ensures Replies(ps + [p], slot, numbers) ==
            Replies(ps, slot, numbers) + (if Requested(p, slot) then OutOfStockMessage(ItemName(p)) else "")
  {
    AppendOrderable(ps, p, slot);
    assert Replies(ps, slot, numbers) + "" == Replies(ps, slot, numbers);
  }

  lemma FreshAfterChoice(existing: seq<int>, numbers: seq<nat>, n: nat)
    requires Fresh(existing, numbers)
    requires 10000 <= n <= 99999 && n !in existing + numbers
    ensures Fresh(existing, numbers + [n])
  {
    var ns := numbers + [n];
    forall k | 0 <= k < |ns|
      ensures 10000 <= ns[k] <= 99999 && ns[k] !in existing && ns[k] !in ns[..k]
    {
      assert ns[..k] == numbers[..k] || k == |numbers|;
      if k == |numbers| {
        assert ns[..k] == numbers;
      }
    }
  }

  /** The table, the issued numbers and the reply text are what the
      products `ps` produce. */
  predicate Produced(ps: seq<Item>, slot: string, orders: seq<Item>, clock: nat -> string,
                     table: seq<Item>, numbers: seq<nat>, content: string)
  {
    && AllOrderable(ps, slot)
    && |numbers| == |Placed(ps, slot)|
    && table == orders + NewOrders(ps, slot, numbers, clock)
    && content == Replies(ps, slot, numbers)
  }

  /** The issued numbers are fresh, and the next uniqueness scan of `table`
      reads the numbers taken before plus the issued ones. */
  predicate Issued(orders: seq<Item>, table: seq<Item>, numbers: seq<nat>) {
    && (numbers != [] ==> ExistingNumbers(orders).Ok?)
    && (numbers == [] ==> table == orders)
    && (ExistingNumbers(orders).Ok? ==>
          ExistingNumbers(table) == Ok(ExistingNumbers(orders).value + numbers) &&
          Fresh(ExistingNumbers(orders).value, numbers))
  }

  /** The state of the placement loop after the products `ps`. */
  predicate Reached(ps: seq<Item>, slot: string, orders: seq<Item>, clock: nat -> string,
                    table: seq<Item>, numbers: seq<nat>, content: string)
  {
    Produced(ps, slot, orders, clock, table, numbers, content) && Issued(orders, table, numbers)
  }

  lemma IssuedAfterChoice(orders: seq<Item>, table: seq<Item>, numbers: seq<nat>,
                          n: nat, timestamp: string, product: string, productId: string)
    requires Issued(orders, table, numbers)
    requires ExistingNumbers(table).Ok? && 10000 <= n <= 99999 && n !in ExistingNumbers(table).value
    ensures Issued(orders, table + [OrderRecord(n, timestamp, product, productId)], numbers + [n])
  {
    assert ExistingNumbers(orders).Ok? by {
      if numbers == [] {
        assert table == orders;
      }
    }
    var e := ExistingNumbers(orders).value;
    ExistingNumbersAfterInsert(table, n, timestamp, product, productId);
    FreshAfterChoice(e, numbers, n);
    assert e + numbers + [n] == e + (numbers + [n]);
  }

  lemma ProducedInStock(ps: seq<Item>, p: Item, slot: string, orders: seq<Item>, clock: nat -> string,
                        table: seq<Item>, numbers: seq<nat>, content: string, n: nat)
    requires Produced(ps, slot, orders, clock, table, numbers, content)
    requires Orderable(p, slot) && InStock(p, slot)
    ensures Produced(ps + [p], slot, orders, clock,
                     table + [OrderRecord(n, clock(|numbers|), ItemName(p), Upper(slot))],
                     numbers + [n], content + SuccessMessage(ItemName(p), n))
  {
    var record := OrderRecord(n, clock(|numbers|), ItemName(p), Upper(slot));
    StepInStock(ps, p, slot, numbers, n, clock);
    assert orders + NewOrders(ps, slot, numbers, clock) + [record] ==
           orders + (NewOrders(ps, slot, numbers, clock) + [record]);
  }

  /** The loop state after any other readable product: only the reply text
      may grow, by the out-of-stock message. */
  lemma ReachedNotInStock(ps: seq<Item>, p: Item, slot: string, orders: seq<Item>, clock: nat -> string,
                          table: seq<Item>, numbers: seq<nat>, content: string)
    requires Reached(ps, slot, orders, clock, table, numbers, content)
    requires Orderable(p, slot) && !InStock(p, slot)
    ensures Reached(ps + [p], slot, orders, clock, table, numbers,
                    content + (if Requested(p, slot) then OutOfStockMessage(ItemName(p)) else ""))
  {
    StepNotInStock(ps, p, slot, numbers, clock);
  }

  /** The error the second in-stock match raises. The first insert rebinds
      the store client to a resource object (`boto3.resource`), and the next
      in-stock match asks that object for `scan`, which it lacks. */
  const ResourceHasNoScan := AttributeError("scan")

  lemma {:induction false} PlacedPrefix(ps: seq<Item>, slot: string, i: nat)
    requires AllOrderable(ps, slot) && i <= |ps|
    ensures AllOrderable(ps[..i], slot) && |Placed(ps[..i], slot)| <= |Placed(ps, slot)|
    decreases |ps| - i
  {
    AllOrderablePrefix(ps, slot, i);
    if i < |ps| {
      PlacedPrefix(ps, slot, i + 1);
      var qs := ps[..i + 1];
      assert qs[..|qs| - 1] == ps[..i];
    } else {
      assert ps[..i] == ps;
    }
  }

  /** A requested product in stock at index i means more orders are due
      for the whole scan than for the products before i. */
  lemma PlacedBeyond(ps: seq<Item>, slot: string, i: int)
    requires AllOrderable(ps, slot) && 0 <= i < |ps| && InStock(ps[i], slot)
    ensures AllOrderable(ps[..i], slot) && |Placed(ps[..i], slot)| < |Placed(ps, slot)|
  {
    PlacedPrefix(ps, slot, i + 1);
    AllOrderablePrefix(ps, slot, i);
    var qs := ps[..i + 1];
    assert qs[..|qs| - 1] == ps[..i] && qs[|qs| - 1] == ps[i];
  }

  /** One pass of the placement loop, for product `p` after the products
      `ps`: raises where `place_order` raises, otherwise inserts an order
      for a requested product in stock, adds the out-of-stock message for a requested product without
      stock, and leaves everything as it was for any other product. Once an
      order has been inserted, another requested product in stock raises
      `AttributeError` before anything is scanned or inserted. */
  method PlaceStep(ps: seq<Item>, p: Item, slot: string, orders: seq<Item>, clock: nat -> string,
                   table: seq<Item>, numbers: seq<nat>, content: string)
    returns (failure: Option<Error>, table': seq<Item>, numbers': seq<nat>, content': string)
    requires |numbers| <= 1
    requires Reached(ps, slot, orders, clock, table, numbers, content)
    ensures failure.None? ==> Reached(ps + [p], slot, orders, clock, table', numbers', content') && |numbers'| <= 1
    ensures failure.Some? ==> table' == table && numbers' == numbers && content' == content
    ensures failure.Some? ==> failure.value.KeyError? || failure.value.ValueError? ||
                              failure == Some(ResourceHasNoScan) || failure == Some(SamplingDiverges)
    ensures failure == Some(ResourceHasNoScan) <==> Orderable(p, slot) && InStock(p, slot) && numbers != []
    ensures failure == Some(SamplingDiverges) ==> ExistingNumbers(orders).Ok? && Exhausted(ExistingNumbers(orders).value)
    ensures (Orderable(p, slot) && ExistingNumbers(orders).Ok?) ==>
              failure.None? || failure == Some(ResourceHasNoScan) || failure == Some(SamplingDiverges)
    ensures Orderable(p, slot) && !InStock(p, slot) ==> failure.None? && table' == table && numbers' == numbers
  {
    table', numbers', content' := table, numbers, content;
    failure := ReadFailure(p, slot);
    if failure.Some? {
      return;
    }
    if !Requested(p, slot) {
      ReachedNotInStock(ps, p, slot, orders, clock, table, numbers, content);
      assert content + "" == content;
    } else if !InStock(p, slot) {
      ReachedNotInStock(ps, p, slot, orders, clock, table, numbers, content);
      content' := content + OutOfStockMessage(ItemName(p));
    } else {
      failure, table', numbers', content' := InsertOrder(ps, p, slot, orders, clock, table, numbers, content);
    }
  }

  /** What reading one product raises in the placement loop, in the order
      the loop reads: the name, the identifier, then, for a product matching
      the slot, the inventory. Nothing is raised exactly for an orderable
      product. */
  function ReadFailure(p: Item, slot: string): (r: Option<Error>)
    ensures r.None? <==> Orderable(p, slot)
    ensures r.Some? ==> r.value.KeyError? || r.value.ValueError?
  {
    match StringAttr(p, "item")
    case Err(e) => Some(e)
    case Ok(_) =>
      match StringAttr(p, "product_id")
      case Err(e) => Some(e)
      case Ok(id) =>
        if Lower(id) != Lower(slot) then None
        else
          match Inventory(p)
          case Err(e) => Some(e)
          case Ok(_) => None
  }

  /** The in-stock branch of the placement loop: the first time, scan the
      order table, choose an unused number and insert the order; any later
      time, raise `AttributeError` on the rebound client. */
  method InsertOrder(ps: seq<Item>, p: Item, slot: string, orders: seq<Item>, clock: nat -> string,
                     table: seq<Item>, numbers: seq<nat>, content: string)
    returns (failure: Option<Error>, table': seq<Item>, numbers': seq<nat>, content': string)
    requires Reached(ps, slot, orders, clock, table, numbers, content) && |numbers| <= 1
    requires Orderable(p, slot) && InStock(p, slot)
    ensures failure.None? ==> Reached(ps + [p], slot, orders, clock, table', numbers', content') && |numbers'| == 1
    ensures failure.Some? ==> table' == table && numbers' == numbers && content' == content
    ensures failure == Some(ResourceHasNoScan) <==> numbers != []
    ensures failure.Some? && failure != Some(ResourceHasNoScan) ==>
              (ExistingNumbers(orders).Err? && failure.value.ValueError?) ||
              (ExistingNumbers(orders).Ok? && Exhausted(ExistingNumbers(orders).value) && failure == Some(SamplingDiverges))
  {
    table', numbers', content' := table, numbers, content;
    if numbers != [] {
      return Some(ResourceHasNoScan), table', numbers', content';
    }
    assert table == orders;
    var existing := ExistingNumbers(table);
    if existing.Err? {
      return Some(existing.error), table', numbers', content';
    }
    if Exhausted(existing.value) {
      return Some(SamplingDiverges), table', numbers', content';
    }
    var n := ChooseOrderNumber(existing.value);
    var item := ItemName(p);
    ProducedInStock(ps, p, slot, orders, clock, table, numbers, content, n);
    IssuedAfterChoice(orders, table, numbers, n, clock(|numbers|), item, Upper(slot));
    table' := table + [OrderRecord(n, clock(|numbers|), item, Upper(slot))];
    numbers' := numbers + [n];
    content' := content + SuccessMessage(item, n);
    failure := None;
  }

  /** Where the placement loop stopped with `AttributeError`: at product i,
      a requested product in stock, after the products before it had
      inserted exactly one order, which stays in the table. */
  predicate CrashedAt(products: seq<Item>, i: int, slot: string, orders: seq<Item>, clock: nat -> string,
                      table: seq<Item>, numbers: seq<nat>)
  {
    && 0 <= i < |products|
    && AllOrderable(products[..i], slot)
    && |numbers| == |Placed(products[..i], slot)| == 1
    && table == orders + NewOrders(products[..i], slot, numbers, clock)
    && Issued(orders, table, numbers)
    && Orderable(products[i], slot) && InStock(products[i], slot)
  }

  /** The placement loop over the whole product scan. It stops at the first
      product that raises, keeping the order inserted before it. At most one
      order is ever inserted: a second requested product in stock raises. */
  method PlaceAll(products: seq<Item>, slot: string, orders: seq<Item>, clock: nat -> string)
    returns (failure: Option<Error>, table: seq<Item>, numbers: seq<nat>, content: string)
    ensures |numbers| <= 1 && orders <= table && |table| <= |orders| + 1
    ensures failure.None? ==> Reached(products, slot, orders, clock, table, numbers, content)
    ensures failure.Some? ==> failure.value.KeyError? || failure.value.ValueError? ||
                              failure == Some(ResourceHasNoScan) || failure == Some(SamplingDiverges)
    ensures failure == Some(ResourceHasNoScan) ==> exists i :: CrashedAt(products, i, slot, orders, clock, table, numbers)
    ensures failure == Some(SamplingDiverges) ==> ExistingNumbers(orders).Ok? && Exhausted(ExistingNumbers(orders).value)
    ensures (AllOrderable(products, slot) && ExistingNumbers(orders).Ok? && !Exhausted(ExistingNumbers(orders).value)) ==>
              && (failure.None? <==> |Placed(products, slot)| <= 1)
              && (failure.Some? ==> failure == Some(ResourceHasNoScan))
    ensures AllOrderable(products, slot) && |Placed(products, slot)| == 0 ==>
              failure.None? && table == orders && numbers == []
  {
    table, numbers, content := orders, [], "";
    if ExistingNumbers(orders).Ok? {
      assert ExistingNumbers(orders).value + numbers == ExistingNumbers(orders).value;
    }
    assert table == orders + NewOrders(products[..0], slot, numbers, clock);
    var i, done := 0, [];
    while i < |products|
      invariant 0 <= i <= |products| && done == products[..i]
      invariant |numbers| <= 1
      invariant Reached(done, slot, orders, clock, table, numbers, content)
      invariant AllOrderable(products, slot) && |Placed(products, slot)| == 0 ==> table == orders && numbers == []
    {
      var p := products[i];
      if AllOrderable(products, slot) {
        assert Orderable(p, slot);
        if InStock(p, slot) {
          PlacedBeyond(products, slot, i);
        }
      }
      failure, table, numbers, content := PlaceStep(done, p, slot, orders, clock, table, numbers, content);
      if failure.Some? {
        if failure == Some(ResourceHasNoScan) {
          assert CrashedAt(products, i, slot, orders, clock, table, numbers);
          if AllOrderable(products, slot) {
            PlacedBeyond(products, slot, i);
          }
        }
        return;
      }
      assert products[..i + 1] == done + [p];
      i, done := i + 1, done + [p];
    }
    assert done == products;
    failure := None;
  }

  /** What `place_order` does, as a relation between the request, the two
      tables and its outcome:
      - in the dialog phase it delegates, inserting nothing;
      - it raises only `KeyError`, `ValueError`, the `AttributeError` of a
        second in-stock match, or spins for ever when no number is free;
      - on success the table gains one "In Transit" order per requested
        product in stock (never more than one), numbered freshly, and the
        reply is the concatenated messages or the fallback text;
      - after an `AttributeError` the one order inserted before it stays;
      - over readable tables with numbers left, it succeeds exactly when at
        most one requested product is in stock;
      - over a readable product scan with no requested product in stock, it
        succeeds without reading the order table, inserting nothing. */
  predicate PlaceOrderSpec(req: IntentRequest, products: seq<Item>, orders: seq<Item>, b: Builtins, clock: nat -> string,
                           r: Result<Response>, table: seq<Item>, numbers: seq<nat>)
  {
    var slot := ProductName(req);
    && orders <= table && |table| <= |orders| + 1 && |numbers| <= 1
    && (IsDialog(req) ==> r == Ok(Response(PlaceSession(req, b), Delegate(req.slots))) && table == orders && numbers == [])
    && (r.Err? ==> !IsDialog(req) &&
                   (r.error.KeyError? || r.error.ValueError? || r.error == ResourceHasNoScan || r.error == SamplingDiverges))
    && (r.Ok? && !IsDialog(req) ==>
          && AllOrderable(products, slot)
          && |numbers| == |Placed(products, slot)|
          && table == orders + NewOrders(products, slot, numbers, clock)
          && (numbers != [] ==> ExistingNumbers(orders).Ok? && Fresh(ExistingNumbers(orders).value, numbers))
          && r.value == Fulfilled(PlaceSession(req, b), OrFallback(Replies(products, slot, numbers))))
    && (r == Err(ResourceHasNoScan) ==> exists i :: 0 <= i < |products| && CrashedAt(products, i, slot, orders, clock, table, numbers))
    && (r == Err(SamplingDiverges) ==> ExistingNumbers(orders).Ok? && Exhausted(ExistingNumbers(orders).value))
    && (!IsDialog(req) && AllOrderable(products, slot) && ExistingNumbers(orders).Ok? && |orders| < 90000 ==>
          && (r.Ok? <==> |Placed(products, slot)| <= 1)
          && (r.Err? ==> r == Err(ResourceHasNoScan)))
    && (!IsDialog(req) && AllOrderable(products, slot) && |Placed(products, slot)| == 0 ==>
          && r == Ok(Fulfilled(PlaceSession(req, b), OrFallback(Replies(products, slot, []))))
          && table == orders && numbers == [])
  }

  /** Two requested products in stock never both get an order: over
      readable tables with numbers left, the handler raises `AttributeError`
      with exactly one new order in the table. */
  lemma SecondInStockMatchRaises(req: IntentRequest, products: seq<Item>, orders: seq<Item>, b: Builtins, clock: nat -> string,
                                 r: Result<Response>, table: seq<Item>, numbers: seq<nat>)
    requires PlaceOrderSpec(req, products, orders, b, clock, r, table, numbers)
    requires !IsDialog(req) && AllOrderable(products, ProductName(req)) && ExistingNumbers(orders).Ok? && |orders| < 90000
    requires |Placed(products, ProductName(req))| >= 2
    ensures r == Err(ResourceHasNoScan) && |numbers| == 1 && |table| == |orders| + 1
  {
    var i :| 0 <= i < |products| && CrashedAt(products, i, ProductName(req), orders, clock, table, numbers);
  }

  /** `place_order`. The slot is read and the query stored in the session
      first; while the platform is collecting slots nothing is scanned or
      inserted. Otherwise each product of the scan, in order, is checked:
      for a requested product in stock an unused 5-digit number is chosen
      and an order inserted, for one out of stock a message is added. The
      product table is never written (the inventory decrement is disabled). */
  method PlaceOrder(req: IntentRequest, products: seq<Item>, orders: seq<Item>, b: Builtins, clock: nat -> string)
    returns (r: Result<Response>, table: seq<Item>, numbers: seq<nat>)
    ensures PlaceOrderSpec(req, products, orders, b, clock, r, table, numbers)
  {
    var session := PlaceSession(req, b);
    if IsDialog(req) {
      return Ok(Response(session, Delegate(req.slots))), orders, [];
    }
    var failure, content;
    failure, table, numbers, content := PlaceAll(products, ProductName(req), orders, clock);
    if ExistingNumbers(orders).Ok? && |orders| < 90000 {
      ShortListLeavesFreeNumber(ExistingNumbers(orders).value);
    }
    if failure.Some? {
      r := Err(failure.value);
    } else {
      r := Ok(Fulfilled(session, OrFallback(content)));
    }
  }

  // ---- Properties of order placement ----

  /** A non-empty reply ends like one of its messages: "...Thank you!" or
      "...later time.". */
  predicate EndsLikeReply(s: string) {
    |s| >= 2 && (s[|s| - 2..] == "u!" || s[|s| - 2..] == "e.")
  }

  lemma AppendKeepsEnding(a: string, b: string)
    requires EndsLikeReply(b)
    ensures EndsLikeReply(a + b)
  {
    assert (a + b)[|a + b| - 2..] == b[|b| - 2..];
  }

  lemma MessagesEndLikeReplies(item: string, number: nat)
    ensures EndsLikeReply(SuccessMessage(item, number))
    ensures EndsLikeReply(OutOfStockMessage(item))
  {
    var thanks := " to check the progress of your order. Thank you!";
    AppendKeepsEnding("Success! Your order for " + item + "has been placed. " + "Use the order number " + DecimalString(number), thanks);
    AppendKeepsEnding("No " + item, "s in stock! Please try again at a later time.");
  }

  predicate NoneRequested(ps: seq<Item>, slot: string)
    requires AllOrderable(ps, slot)
  {
    forall i :: 0 <= i < |ps| ==> !Requested(ps[i], slot)
  }

  /** The reply text is empty exactly when no product was the one asked for. */
  lemma {:induction false} RepliesEmptyIffNoneRequested(ps: seq<Item>, slot: string, numbers: seq<nat>)
    requires AllOrderable(ps, slot) && |numbers| == |Placed(ps, slot)|
    ensures Replies(ps, slot, numbers) == "" <==> NoneRequested(ps, slot)
    decreases |ps|
  {
    if ps != [] {
      var init := ps[..|ps| - 1];
      var p := ps[|ps| - 1];
      AllOrderablePrefix(ps, slot, |ps| - 1);
      if InStock(p, slot) {
        assert !NoneRequested(ps, slot);
      } else if Requested(p, slot) {
        assert !NoneRequested(ps, slot);
      } else {
        RepliesEmptyIffNoneRequested(init, slot, numbers);
        assert NoneRequested(ps, slot) <==> NoneRequested(init, slot) by {
          forall i | 0 <= i < |init| ensures init[i] == ps[i] { }
        }
      }
    }
  }

  /** A non-empty reply ends with the end of its last message. */
  lemma {:induction false} RepliesEndLikeReply(ps: seq<Item>, slot: string, numbers: seq<nat>)
    requires AllOrderable(ps, slot) && |numbers| == |Placed(ps, slot)|
    ensures Replies(ps, slot, numbers) != "" ==> EndsLikeReply(Replies(ps, slot, numbers))
    decreases |ps|
  {
    if ps != [] {
      var init := ps[..|ps| - 1];
      var p := ps[|ps| - 1];
      AllOrderablePrefix(ps, slot, |ps| - 1);
      if InStock(p, slot) {
        var n := numbers[|numbers| - 1];
        var text := Replies(init, slot, numbers[..|numbers| - 1]);
        assert Replies(ps, slot, numbers) == text + SuccessMessage(ItemName(p), n);
        MessagesEndLikeReplies(ItemName(p), n);
        AppendKeepsEnding(text, SuccessMessage(ItemName(p), n));
      } else if Requested(p, slot) {
        var text := Replies(init, slot, numbers);
        assert Replies(ps, slot, numbers) == text + OutOfStockMessage(ItemName(p));
        MessagesEndLikeReplies(ItemName(p), 0);
        AppendKeepsEnding(text, OutOfStockMessage(ItemName(p)));
      } else {
        RepliesEndLikeReply(init, slot, numbers);
      }
    }
  }

  /** The order reply is exactly the fallback text iff no product was the
      one asked for; then no order is inserted either. */
  lemma OrderReplyFallback(ps: seq<Item>, slot: string, numbers: seq<nat>)
    requires AllOrderable(ps, slot) && |numbers| == |Placed(ps, slot)|
    ensures OrFallback(Replies(ps, slot, numbers)) == NoMatch <==> NoneRequested(ps, slot)
    ensures NoneRequested(ps, slot) ==> numbers == []
  {
    RepliesEmptyIffNoneRequested(ps, slot, numbers);
    RepliesEndLikeReply(ps, slot, numbers);
    assert NoMatch[|NoMatch| - 2..] == "d!";
    if numbers != [] {
      var q := Placed(ps, slot)[0];
      PlacedSelectsExactly(ps, slot, q);
      var i :| 0 <= i < |ps| && ps[i] == q;
      assert Requested(ps[i], slot);
    }
  }

  /** An order is placed for a product iff it is in the scan, is the one
      asked for (ignoring case) and has positive inventory. */
  lemma {:induction false} PlacedSelectsExactly(ps: seq<Item>, slot: string, p: Item)
    requires AllOrderable(ps, slot)
    ensures p in Placed(ps, slot) <==> p in ps && Orderable(p, slot) && InStock(p, slot)
    decreases |ps|
  {
    if ps != [] {
      var init := ps[..|ps| - 1];
      AllOrderablePrefix(ps, slot, |ps| - 1);
      PlacedSelectsExactly(init, slot, p);
      assert ps == init + [ps[|ps| - 1]];
    }
  }

  /** The fields of the k-th inserted order: the decimal numeral of the
      k-th issued number (five digits), the placed product's name, status
      "In Transit", and the slot uppercased, which equals the product's
      identifier ignoring case. */
  lemma NewOrderFields(ps: seq<Item>, slot: string, numbers: seq<nat>, clock: nat -> string, k: int)
    requires AllOrderable(ps, slot) && |numbers| == |Placed(ps, slot)| && 0 <= k < |numbers|
    ensures var order := NewOrders(ps, slot, numbers, clock)[k];
            var product := Placed(ps, slot)[k];
            && StringAttr(order, "OrderNumber") == Ok(DecimalString(numbers[k]))
            && StringAttr(order, "OrderTimestamp") == Ok(clock(k))
            && StringAttr(order, "Product") == Ok(ItemName(product))
            && StringAttr(order, "Status") == Ok(InTransit)
            && StringAttr(order, "ProductID") == Ok(Upper(slot))
            && Lower(StringAttr(order, "ProductID").value) == Lower(StringAttr(product, "product_id").value)
    ensures 10000 <= numbers[k] <= 99999 ==> |DecimalString(numbers[k])| == 5
  {
    var product := Placed(ps, slot)[k];
    var order := NewOrders(ps, slot, numbers, clock)[k];
    assert order == OrderRecord(numbers[k], clock(k), ItemName(product), Upper(slot));
    OrderRecordFields(numbers[k], clock(k), ItemName(product), Upper(slot));
    assert Requested(product, slot);
    LowerOfUpper(slot);
    if 10000 <= numbers[k] <= 99999 {
      FiveDigitNumeral(numbers[k]);
    }
  }

  predicate Distinct(xs: seq<int>) {
    forall i, j :: 0 <= i < j < |xs| ==> xs[i] != xs[j]
  }

  /** Appending orders whose numbers read back as `numbers` appends exactly
      those numbers to what the uniqueness scan reads. */
  lemma {:induction false} ExistingAfterAppend(orders: seq<Item>, news: seq<Item>, numbers: seq<nat>)
    requires ExistingNumbers(orders).Ok? && |news| == |numbers|
    requires forall j :: 0 <= j < |news| ==> OrderNumberOf(news[j]) == Ok(Some(numbers[j] as int))
    ensures ExistingNumbers(orders + news) == Ok(ExistingNumbers(orders).value + numbers)
    decreases |news|
  {
    if news == [] {
      assert orders + news == orders;
      assert ExistingNumbers(orders).value + numbers == ExistingNumbers(orders).value;
    } else {
      var k := |news| - 1;
      var front := news[..k];
      NumberedPrefix(news, numbers, front, numbers[..k]);
      ExistingAfterAppend(orders, front, numbers[..k]);
      ExistingAppendStep(orders, news, numbers);
    }
  }

  /** The per-order numbering of a batch holds for every batch but its last order. */
  lemma NumberedPrefix(news: seq<Item>, numbers: seq<nat>, front: seq<Item>, earlier: seq<nat>)
    requires |news| == |numbers| > 0 && front == news[..|news| - 1] && earlier == numbers[..|numbers| - 1]
    requires forall j :: 0 <= j < |news| ==> OrderNumberOf(news[j]) == Ok(Some(numbers[j] as int))
    ensures forall j :: 0 <= j < |front| ==> OrderNumberOf(front[j]) == Ok(Some(earlier[j] as int))
  {
  }

  /** The last order of a batch adds its number after those of the others. */
  lemma ExistingAppendStep(orders: seq<Item>, news: seq<Item>, numbers: seq<nat>)
    requires ExistingNumbers(orders).Ok? && |news| == |numbers| > 0
    requires ExistingNumbers(orders + news[..|news| - 1]) == Ok(ExistingNumbers(orders).value + numbers[..|numbers| - 1])
    requires OrderNumberOf(news[|news| - 1]) == Ok(Some(numbers[|numbers| - 1] as int))
    ensures ExistingNumbers(orders + news) == Ok(ExistingNumbers(orders).value + numbers)
  {
    var k := |news| - 1;
    ExistingSnoc(orders + news[..k], news[k], numbers[k]);
    SnocJoin(orders, news);
    SnocJoin(ExistingNumbers(orders).value, numbers);
  }

  /** One more numbered order adds its number at the end of what the scan reads. */
  lemma ExistingSnoc(orders: seq<Item>, order: Item, n: int)
    requires ExistingNumbers(orders).Ok? && OrderNumberOf(order) == Ok(Some(n))
    ensures ExistingNumbers(orders + [order]) == Ok(ExistingNumbers(orders).value + [n])
  {
    var table := orders + [order];
    assert table[..|table| - 1] == orders;
  }

  /** Splitting off the last element of an appended sequence. */
  lemma SnocJoin<T>(a: seq<T>, b: seq<T>)
    requires b != []
    ensures (a + b[..|b| - 1]) + [b[|b| - 1]] == a + b
  {
  }

  lemma NewOrdersNumbered(ps: seq<Item>, slot: string, numbers: seq<nat>, clock: nat -> string)
    requires AllOrderable(ps, slot) && |numbers| == |Placed(ps, slot)|
    ensures var news := NewOrders(ps, slot, numbers, clock);
            forall j :: 0 <= j < |news| ==> OrderNumberOf(news[j]) == Ok(Some(numbers[j] as int))
  {
    var news := NewOrders(ps, slot, numbers, clock);
    forall j | 0 <= j < |news|
      ensures OrderNumberOf(news[j]) == Ok(Some(numbers[j] as int))
    {
      var placed := Placed(ps, slot);
      assert news[j] == OrderRecord(numbers[j], clock(j), ItemName(placed[j]), Upper(slot));
      ParseDecimalRoundTrip(numbers[j]);
    }
  }

  /** Order numbers stay unique: if the numbers taken before were distinct,
      the order table after placement holds distinct numbers, and they are
      the old ones followed by the issued ones. */
  lemma PlacementKeepsNumbersUnique(orders: seq<Item>, ps: seq<Item>, slot: string, numbers: seq<nat>, clock: nat -> string)
    requires AllOrderable(ps, slot) && |numbers| == |Placed(ps, slot)|
    requires ExistingNumbers(orders).Ok? && Distinct(ExistingNumbers(orders).value)
    requires Fresh(ExistingNumbers(orders).value, numbers)
    ensures ExistingNumbers(orders + NewOrders(ps, slot, numbers, clock)) == Ok(ExistingNumbers(orders).value + numbers)
    ensures Distinct(ExistingNumbers(orders).value + numbers)
  {
    var news := NewOrders(ps, slot, numbers, clock);
    NewOrdersNumbered(ps, slot, numbers, clock);
    ExistingAfterAppend(orders, news, numbers);
    FreshKeepsDistinct(ExistingNumbers(orders).value, numbers);
  }

  /** Distinct numbers followed by fresh ones are still distinct. */
  lemma FreshKeepsDistinct(e: seq<int>, numbers: seq<nat>)
    requires Distinct(e) && Fresh(e, numbers)
    ensures Distinct(e + numbers)
  {
    var all := e + numbers;
    forall i, j | 0 <= i < j < |all|
      ensures all[i] != all[j]
    {
      if j >= |e| {
        var j' := j - |e|;
        if i >= |e| {
          assert all[i] == numbers[i - |e|] && numbers[i - |e|] in numbers[..j'];
        } else {
          assert all[i] in e;
        }
      }
    }
  }

  lemma AppendedNumbersMatch(orders: seq<Item>, news: seq<Item>, numbers: seq<nat>, k: int)
    requires AllNumbered(orders) && |news| == |numbers| && 0 <= k < |news|
    requires forall j :: 0 <= j < |news| ==> StringAttr(news[j], "OrderNumber") == Ok(DecimalString(numbers[j]))
    requires forall j :: k < j < |numbers| ==> numbers[j] != numbers[k]
    ensures AllNumbered(orders + news)
    ensures KeyMatches((orders + news)[|orders| + k], "OrderNumber", Verbatim, DecimalString(numbers[k]))
    ensures forall j :: |orders| + k < j < |orders + news| ==>
              !KeyMatches((orders + news)[j], "OrderNumber", Verbatim, DecimalString(numbers[k]))
  {
    var table := orders + news;
    forall j | 0 <= j < |table|
      ensures StringAttr(table[j], "OrderNumber").Ok?
    {
      if j >= |orders| {
        assert table[j] == news[j - |orders|];
      }
    }
    assert table[|orders| + k] == news[k];
    forall j | |orders| + k < j < |table|
      ensures !KeyMatches(table[j], "OrderNumber", Verbatim, DecimalString(numbers[k]))
    {
      assert table[j] == news[j - |orders|];
      DecimalStringInjective(numbers[k], numbers[j - |orders|]);
    }
  }

  /** A freshly placed order can be looked up: checking the status of the
      k-th issued number on the extended table answers with that order. */
  lemma PlacedOrderIsTrackable(req: IntentRequest, orders: seq<Item>, ps: seq<Item>, numbers: seq<nat>,
                               clock: nat -> string, k: int, b: Builtins)
    requires !IsDialog(req) && AllNumbered(orders)
    requires AllOrderable(ps, ProductName(req)) && |numbers| == |Placed(ps, ProductName(req))| && 0 <= k < |numbers|
    requires ExistingNumbers(orders).Ok? && Fresh(ExistingNumbers(orders).value, numbers)
    requires SlotText(req, "OrderNumber") == DecimalString(numbers[k])
    ensures CheckOrder(req, orders + NewOrders(ps, ProductName(req), numbers, clock), b) ==
            Ok(Fulfilled(CheckSession(req, b), Render(NewOrders(ps, ProductName(req), numbers, clock)[k])))
  {
    var slot := ProductName(req);
    var news := NewOrders(ps, slot, numbers, clock);
    forall j | 0 <= j < |news|
      ensures StringAttr(news[j], "OrderNumber") == Ok(DecimalString(numbers[j]))
    {
      NewOrderFields(ps, slot, numbers, clock, j);
    }
    forall j | k < j < |numbers|
      ensures numbers[j] != numbers[k]
    {
      assert numbers[k] in numbers[..j];
    }
    AppendedNumbersMatch(orders, news, numbers, k);
    CheckOrderReply(req, orders + news, b);
  }

  const OrderIntents: set<string> := {"CheckOrderStatus", "PlaceOrder"}

  /** `dispatch` of the order bot: two intents; any other intent name raises
      before any table is read or written. */
  method DispatchOrders(req: IntentRequest, products: seq<Item>, orders: seq<Item>, b: Builtins, clock: nat -> string)
    returns (r: Result<Response>, table: seq<Item>, numbers: seq<nat>)
    ensures r == Err(IntentNotSupported(req.intentName)) <==> req.intentName !in OrderIntents
    ensures req.intentName != "PlaceOrder" ==> table == orders && numbers == []
    ensures req.intentName == "CheckOrderStatus" ==> r == CheckOrder(req, orders, b)
    ensures req.intentName == "PlaceOrder" ==> PlaceOrderSpec(req, products, orders, b, clock, r, table, numbers)
    ensures orders <= table
    ensures r.Ok? ==> (r.value.dialogAction.Delegate? <==> IsDialog(req))
    ensures r.Ok? && !IsDialog(req) ==> ClosesFulfilled(r.value)
  {
    if req.intentName == "CheckOrderStatus" {
      r, table, numbers := CheckOrder(req, orders, b), orders, [];
    } else if req.intentName == "PlaceOrder" {
      r, table, numbers := PlaceOrder(req, products, orders, b, clock);
    } else {
      r, table, numbers := Err(IntentNotSupported(req.intentName)), orders, [];
    }
  }
}

=== FILE: outcomes.dfy ===
/** Failure-compatible wrappers shared by both handlers, and the exceptions
    the handlers let escape to the dialog platform. */
module Outcomes {

  /** A value that may be absent (Python's `None`). */
  datatype Option<+T> = None | Some(value: T) {

    predicate IsFailure() {
      None?
    }

    function PropagateFailure<U>(): Option<U>
      requires None?
    {
      None
    }

    function Extract(): T
      requires Some?
    {
      value
    }
  }

  /** The uncaught exceptions a handler can end with. */
  datatype Error =
    | KeyError(key: string)            // a scanned record lacks an attribute (the attribute's name), or holds
                                       // it under the other type (the type tag asked for, "S" or "N")
    | TypeError                        // `float(None)` on a slot the platform left unset
    | ValueError(literal: string)      // `float(...)` or `int(...)` of a string that is not a number
    | IntentNotSupported(intentName: string)  // "Intent with name ... not supported"
    | AttributeError(attribute: string)       // an attribute looked up on an object that lacks it
    | SamplingDiverges                 // every 5-digit order number is taken: the sampling loop never ends

  /** Either the handler's value or the exception it raised. */
  datatype Result<+T> = Ok(value: T) | Err(error: Error) {

    predicate IsFailure() {
      Err?
    }

    function PropagateFailure<U>(): Result<U>
      requires Err?
    {
      Err(error)
    }

    function Extract(): T
      requires Ok?
    {
      value
    }
  }
}

=== FILE: product_information.dfy ===
/** The product bot: listing the catalogue by category and price range
    (`GetProductInfo`), the same listing over the comparison catalogue
    without identifiers (`CompareProducts`), and one product's full record
    (`SpecificProductDetails`). The scanned tables are passed in. */
module ProductInformation {
  import opened Outcomes
  import opened Text
  import opened Store
  import opened Lex

  const CanonicalCategories: set<string> := {"PCs", "Accessories", "Printers"}

  /** The `ProductCategory` slot mapped, ignoring case, onto the catalogue's
      own category names; any other text is kept as it is. */
  function NormalizeCategory(category: string): (r: string)
    ensures r == category || r in CanonicalCategories
    ensures r != category ==> Lower(category) in {"computers", "accessories", "printers"}
  {
    if Lower(category) == "computers" then "PCs"
    else if Lower(category) == "accessories" then "Accessories"
    else if Lower(category) == "printers" then "Printers"
    else category
  }

  /** The alias table, for every spelling of each alias. */
  lemma NormalizeCategoryTable(category: string)
    ensures Lower(category) == "computers" ==> NormalizeCategory(category) == "PCs"
    ensures Lower(category) == "accessories" ==> NormalizeCategory(category) == "Accessories"
    ensures Lower(category) == "printers" ==> NormalizeCategory(category) == "Printers"
    ensures Lower(category) !in {"computers", "accessories", "printers"} ==> NormalizeCategory(category) == category
  {
  }

  /** Spellings that differ only in letter case normalise alike, unless
      neither is an alias (then each is kept verbatim). */
  lemma NormalizeCategoryIgnoresCase(a: string, b: string)
    requires Lower(a) == Lower(b)
    ensures NormalizeCategory(a) == NormalizeCategory(b) ||
            (NormalizeCategory(a) == a && NormalizeCategory(b) == b)
  {
  }

  /** A canonical name is not itself an alias, so normalising twice changes
      nothing. */
  lemma NormalizeCategoryIdempotent(category: string)
    ensures NormalizeCategory(NormalizeCategory(category)) == NormalizeCategory(category)
  {
    var r := NormalizeCategory(category);
    if r == "PCs" {
      assert Lower(r)[0] == 'p';
    } else if r == "Accessories" {
      assert Lower(r)[0] == 'a' && |Lower(r)| == 11;
    } else if r == "Printers" {
      assert Lower(r)[1] == 'r' && |Lower(r)| == 8;
    }
  }

  /** The printed form of a listed product, `item: $price Product ID: id | `,
      or `item: $price | ` without an identifier: it opens with the name and
      the price, and closes with the identifier, if any, and the separator. */
  function LineText(item: string, price: string, id: Option<string>): (r: string)
    ensures StartsWith(r, item + ": $" + price)
    ensures id.Some? ==> EndsWith(r, " Product ID: " + id.value + " | ")
    ensures id.None? ==> EndsWith(r, price + " | ")
    ensures |r| == |item| + 3 + |price| + (if id.Some? then 13 + |id.value| else 0) + 3
    ensures EndsWithBar(r)
  {
    var head := item + ": $" + price;
    match id
    case Some(identifier) =>
      var tail := " Product ID: " + identifier + " | ";
      ConcatEnds(head, tail);
      ConcatEnds(" Product ID: " + identifier, " | ");
      EndsWithAppend(head, tail, " | ");
      head + tail
    case None =>
      ConcatEnds(head, " | ");
      EndsWithJoin(item + ": $", price, " | ");
      head + " | "
  }

  /** One listed product as the listing prints it. Its name, price and, in
      the main listing, identifier are read in that order; a missing or
      mistyped one raises `KeyError`. */
  function ListingLine(p: Item, withId: bool): (r: Result<string>)
    ensures r.Ok? <==> StringAttr(p, "item").Ok? && NumberAttr(p, "price").Ok? &&
                       (withId ==> StringAttr(p, "product_id").Ok?)
    ensures r.Err? ==> r.error.KeyError?
    ensures r.Ok? ==> EndsWithBar(r.value)
    ensures r.Ok? && withId ==> EndsWith(r.value, " Product ID: " + StringAttr(p, "product_id").value + " | ")
    ensures r.Ok? ==> r.value == LineText(StringAttr(p, "item").value, NumberAttr(p, "price").value,
                                          if withId then Some(StringAttr(p, "product_id").value) else None)
  {
    var item :- StringAttr(p, "item");
    var price :- NumberAttr(p, "price");
    if withId then
      var id :- StringAttr(p, "product_id");
      Ok(LineText(item, price, Some(id)))
    else
      Ok(LineText(item, price, None))
  }

  /** What one scanned product adds to the listing. The category is read for
      every product, the price only for products of the wanted category, and
      the printed attributes only for products priced inside the bounds. */
  function ListingEntry(p: Item, category: string, minPrice: real, maxPrice: real, withId: bool, b: Builtins): (r: Result<string>)
    ensures r.Err? ==> r.error.KeyError? || r.error.ValueError?
    ensures StringAttr(p, "item category").Ok? && StringAttr(p, "item category").value != category ==> r == Ok("")
    ensures r.Ok? && r.value != "" ==> StringAttr(p, "item category") == Ok(category) && EndsWithBar(r.value)
  {
    var productCategory :- StringAttr(p, "item category");
    if productCategory != category then Ok("")
    else
      var text :- NumberAttr(p, "price");
      var price :- ParseFloat(text, b);
      if maxPrice > price > minPrice then ListingLine(p, withId) else Ok("")
  }

  /** The scan loop of the listing handlers, in scan order; the first
      product that cannot be read raises. */
  function ListingScan(ps: seq<Item>, category: string, minPrice: real, maxPrice: real, withId: bool, b: Builtins): (r: Result<string>)
    ensures r.Err? ==> r.error.KeyError? || r.error.ValueError?
    decreases |ps|
  {
    if ps == [] then Ok("")
    else
      var earlier :- ListingScan(ps[..|ps| - 1], category, minPrice, maxPrice, withId, b);
      var entry :- ListingEntry(ps[|ps| - 1], category, minPrice, maxPrice, withId, b);
      Ok(earlier + entry)
  }

  // ---- Reference listing: filter the catalogue, then print each match ----

  /** The product's `price` is a number attribute whose text `float` accepts. */
  predicate HasPrice(p: Item, b: Builtins) {
    NumberAttr(p, "price").Ok? && b.float(NumberAttr(p, "price").value).Some?
  }

  function PriceOf(p: Item, b: Builtins): real
    requires HasPrice(p, b)
  {
    b.float(NumberAttr(p, "price").value).value
  }

  /** Printing the product for the listing reads its name, its price and,
      with identifiers, its identifier. */
  predicate Printable(p: Item, withId: bool) {
    ListingLine(p, withId).Ok?
  }

  /** Every attribute the listing loop reads from this product is there,
      with the type it expects: the category always, a price `float` accepts
      when the category is the wanted one, and the printed attributes when
      that price also lies inside the bounds. */
  predicate Listable(p: Item, category: string, minPrice: real, maxPrice: real, withId: bool, b: Builtins) {
    && StringAttr(p, "item category").Ok?
    && (StringAttr(p, "item category").value == category ==>
          HasPrice(p, b) && (minPrice < PriceOf(p, b) < maxPrice ==> Printable(p, withId)))
  }

  predicate AllListable(ps: seq<Item>, category: string, minPrice: real, maxPrice: real, withId: bool, b: Builtins) {
    forall i :: 0 <= i < |ps| ==> Listable(ps[i], category, minPrice, maxPrice, withId, b)
  }

  /** The selection rule: exact category, price strictly inside the bounds. */
  predicate Wanted(p: Item, category: string, minPrice: real, maxPrice: real, withId: bool, b: Builtins)
    requires Listable(p, category, minPrice, maxPrice, withId, b)
  {
    StringAttr(p, "item category").value == category && minPrice < PriceOf(p, b) < maxPrice
  }

  /** The wanted products, in scan order. */
  function Matching(ps: seq<Item>, category: string, minPrice: real, maxPrice: real, withId: bool, b: Builtins): (r: seq<Item>)
    requires AllListable(ps, category, minPrice, maxPrice, withId, b)
    ensures forall k :: 0 <= k < |r| ==> Printable(r[k], withId)
    decreases |ps|
  {
    if ps == [] then []
    else
      AllListablePrefix(ps, category, minPrice, maxPrice, withId, b);
      var earlier := Matching(ps[..|ps| - 1], category, minPrice, maxPrice, withId, b);
      if Wanted(ps[|ps| - 1], category, minPrice, maxPrice, withId, b) then earlier + [ps[|ps| - 1]] else earlier
  }

  /** The printed forms of the given products, concatenated. */
  function Lines(ps: seq<Item>, withId: bool): (r: string)
    requires forall k :: 0 <= k < |ps| ==> Printable(ps[k], withId)
    ensures ps != [] ==> EndsWithBar(r)
    decreases |ps|
  {
    if ps == [] then ""
    else
      assert Printable(ps[|ps| - 1], withId);
      var line := ListingLine(ps[|ps| - 1], withId).value;
      BarAfter(Lines(ps[..|ps| - 1], withId), line);
      Lines(ps[..|ps| - 1], withId) + line
  }

  lemma AllListablePrefix(ps: seq<Item>, category: string, minPrice: real, maxPrice: real, withId: bool, b: Builtins)
    requires ps != [] && AllListable(ps, category, minPrice, maxPrice, withId, b)
    ensures AllListable(ps[..|ps| - 1], category, minPrice, maxPrice, withId, b)
    ensures Listable(ps[|ps| - 1], category, minPrice, maxPrice, withId, b)
  {
    var init := ps[..|ps| - 1];
    forall i | 0 <= i < |init|
      ensures Listable(init[i], category, minPrice, maxPrice, withId, b)
    {
      assert init[i] == ps[i];
    }
  }
  /** A product is listed iff it is in the catalogue and is wanted. */
  lemma {:induction false} MatchingSelectsExactly(ps: seq<Item>, p: Item, category: string, minPrice: real, maxPrice: real, withId: bool, b: Builtins)
    requires AllListable(ps, category, minPrice, maxPrice, withId, b)
    ensures p in Matching(ps, category, minPrice, maxPrice, withId, b) <==>
              p in ps && Listable(p, category, minPrice, maxPrice, withId, b) && Wanted(p, category, minPrice, maxPrice, withId, b)
    decreases |ps|
  {
    if ps != [] {
      var init := ps[..|ps| - 1];
      var last := ps[|ps| - 1];
      AllListablePrefix(ps, category, minPrice, maxPrice, withId, b);
      MatchingSelectsExactly(init, p, category, minPrice, maxPrice, withId, b);
      assert ps == init + [last];
      assert p in ps <==> p in init || p == last;
    }
  }

  /** A price equal to either bound is never listed: both bounds are exclusive. */
  lemma BoundaryPriceExcluded(ps: seq<Item>, p: Item, category: string, minPrice: real, maxPrice: real, withId: bool, b: Builtins)
    requires AllListable(ps, category, minPrice, maxPrice, withId, b) && HasPrice(p, b)
    requires PriceOf(p, b) == minPrice || PriceOf(p, b) == maxPrice
    ensures p !in Matching(ps, category, minPrice, maxPrice, withId, b)
  {
    MatchingSelectsExactly(ps, p, category, minPrice, maxPrice, withId, b);
  }

  /** One product's pass of the scan loop succeeds exactly when the product
      is readable for this listing, and then adds its printed form when it is
      wanted and nothing otherwise. */
  lemma ListingEntryOfListable(p: Item, category: string, minPrice: real, maxPrice: real, withId: bool, b: Builtins)
    ensures ListingEntry(p, category, minPrice, maxPrice, withId, b).Ok? <==> Listable(p, category, minPrice, maxPrice, withId, b)
    ensures Listable(p, category, minPrice, maxPrice, withId, b) ==>
              ListingEntry(p, category, minPrice, maxPrice, withId, b) ==
                Ok(if Wanted(p, category, minPrice, maxPrice, withId, b) then ListingLine(p, withId).value else "")
  {
  }

  /** The scan loop raises exactly when some product is not readable for
      this listing: a missing category anywhere, a missing or unparsable
      price in the wanted category, or a missing printed attribute on a
      product in the price range. */
  lemma {:induction false} ListingScanFails(ps: seq<Item>, category: string, minPrice: real, maxPrice: real, withId: bool, b: Builtins)
    ensures ListingScan(ps, category, minPrice, maxPrice, withId, b).Ok? <==> AllListable(ps, category, minPrice, maxPrice, withId, b)
    decreases |ps|
  {
    if ps != [] {
      var init := ps[..|ps| - 1];
      var p := ps[|ps| - 1];
      ListingScanFails(init, category, minPrice, maxPrice, withId, b);
      ListingEntryOfListable(p, category, minPrice, maxPrice, withId, b);
      if AllListable(ps, category, minPrice, maxPrice, withId, b) {
        AllListablePrefix(ps, category, minPrice, maxPrice, withId, b);
      } else if AllListable(init, category, minPrice, maxPrice, withId, b) {
        forall i | 0 <= i < |init|
          ensures Listable(ps[i], category, minPrice, maxPrice, withId, b)
        {
          assert ps[i] == init[i];
        }
        assert !Listable(p, category, minPrice, maxPrice, withId, b);
      }
    }
  }

  /** The scan loop prints exactly the wanted products, in scan order, each
      in its listing format. */
  lemma {:induction false} ListingScanPrintsMatches(ps: seq<Item>, category: string, minPrice: real, maxPrice: real, withId: bool, b: Builtins)
    requires AllListable(ps, category, minPrice, maxPrice, withId, b)
    ensures ListingScan(ps, category, minPrice, maxPrice, withId, b) ==
              Ok(Lines(Matching(ps, category, minPrice, maxPrice, withId, b), withId))
    decreases |ps|
  {
    if ps != [] {
      var init := ps[..|ps| - 1];
      var p := ps[|ps| - 1];
      AllListablePrefix(ps, category, minPrice, maxPrice, withId, b);
      ListingScanPrintsMatches(init, category, minPrice, maxPrice, withId, b);
      var m := Matching(init, category, minPrice, maxPrice, withId, b);
      ListingEntryOfListable(p, category, minPrice, maxPrice, withId, b);
      if Wanted(p, category, minPrice, maxPrice, withId, b) {
        LinesSnoc(m, p, withId);
      } else {
        assert Lines(m, withId) + "" == Lines(m, withId);
      }
    }
  }

  lemma LinesSnoc(ms: seq<Item>, p: Item, withId: bool)
    requires forall k :: 0 <= k < |ms| ==> Printable(ms[k], withId)
    requires Printable(p, withId)
    ensures forall k :: 0 <= k < |ms + [p]| ==> Printable((ms + [p])[k], withId)
    ensures Lines(ms + [p], withId) == Lines(ms, withId) + ListingLine(p, withId).value
  {
    assert (ms + [p])[..|ms|] == ms;
  }

  /** The reply is the fallback text exactly when nothing was printed. */
  lemma ListingFallback(ms: seq<Item>, withId: bool)
    requires forall k :: 0 <= k < |ms| ==> Printable(ms[k], withId)
    ensures OrFallback(Lines(ms, withId)) == NoMatch <==> ms == []
  {
    if ms != [] {
      BarredReplyIsNotFallback(Lines(ms, withId));
    }
  }

  // ---- The handlers ----

  /** `get_product_information` and `compare_products`: the slots are read
      and the query is stored in the session first; while the platform is
      collecting slots the answer is a delegation, otherwise the table is
      scanned and every wanted product is listed. */
  function ListingHandler(req: IntentRequest, table: seq<Item>, withId: bool, b: Builtins): (r: Result<Response>)
    ensures r.Ok? ==> (r.value.dialogAction.Delegate? <==> IsDialog(req))
    ensures r.Ok? && !IsDialog(req) ==> ClosesFulfilled(r.value)
    ensures r.Err? ==> r.error.TypeError? || r.error.ValueError? || r.error.KeyError?
    ensures !PricesParse(req, b) ==> r.Err?
    ensures IsDialog(req) ==> (r.Ok? <==> PricesParse(req, b))
  {
    var category := NormalizeCategory(SlotText(req, "ProductCategory"));
    var minPrice :- SlotFloat(req, "MinPrice", b);
    var maxPrice :- SlotFloat(req, "MaxPrice", b);
    var session := SessionWith(req, "productQuery", b.jsonDumps(ProductQuery(category, minPrice, maxPrice)));
    if IsDialog(req) then
      Ok(Response(session, Delegate(req.slots)))
    else
      var content :- ListingScan(table, category, minPrice, maxPrice, withId, b);
      Ok(Fulfilled(session, OrFallback(content)))
  }

  /** Both price slots hold text `float` accepts. */
  predicate PricesParse(req: IntentRequest, b: Builtins) {
    SlotFloat(req, "MinPrice", b).Ok? && SlotFloat(req, "MaxPrice", b).Ok?
  }

  function ListingSession(req: IntentRequest, b: Builtins): map<string, string>
    requires PricesParse(req, b)
  {
    var category := NormalizeCategory(SlotText(req, "ProductCategory"));
    SessionWith(req, "productQuery",
                b.jsonDumps(ProductQuery(category, SlotFloat(req, "MinPrice", b).value, SlotFloat(req, "MaxPrice", b).value)))
  }

  /** The table is readable for the listing the request asks for. */
  predicate ReadableFor(req: IntentRequest, table: seq<Item>, withId: bool, b: Builtins)
    requires PricesParse(req, b)
  {
    AllListable(table, NormalizeCategory(SlotText(req, "ProductCategory")),
                SlotFloat(req, "MinPrice", b).value, SlotFloat(req, "MaxPrice", b).value, withId, b)
  }

  /** The products the request asks for, in scan order. */
  function Asked(req: IntentRequest, table: seq<Item>, withId: bool, b: Builtins): (r: seq<Item>)
    requires PricesParse(req, b) && ReadableFor(req, table, withId, b)
    ensures forall k :: 0 <= k < |r| ==> Printable(r[k], withId)
  {
    Matching(table, NormalizeCategory(SlotText(req, "ProductCategory")),
             SlotFloat(req, "MinPrice", b).value, SlotFloat(req, "MaxPrice", b).value, withId, b)
  }

  /** Fulfilment once both prices parse: the handler raises iff the table is
      not readable for this listing, and otherwise the reply lists the
      wanted products or, when there are none, is exactly the fallback text. */
  lemma ListingReply(req: IntentRequest, table: seq<Item>, withId: bool, b: Builtins)
    ensures !IsDialog(req) && PricesParse(req, b) ==>
              && (ListingHandler(req, table, withId, b).Ok? <==> ReadableFor(req, table, withId, b))
              && (ReadableFor(req, table, withId, b) ==>
                    && ListingHandler(req, table, withId, b) ==
                         Ok(Fulfilled(ListingSession(req, b), OrFallback(Lines(Asked(req, table, withId, b), withId))))
                    && (OrFallback(Lines(Asked(req, table, withId, b), withId)) == NoMatch <==> Asked(req, table, withId, b) == []))
  {
    if !IsDialog(req) && PricesParse(req, b) {
      var category := NormalizeCategory(SlotText(req, "ProductCategory"));
      var minPrice := SlotFloat(req, "MinPrice", b).value;
      var maxPrice := SlotFloat(req, "MaxPrice", b).value;
      ListingScanFails(table, category, minPrice, maxPrice, withId, b);
      if ReadableFor(req, table, withId, b) {
        ListingScanPrintsMatches(table, category, minPrice, maxPrice, withId, b);
        ListingFallback(Asked(req, table, withId, b), withId);
      }
    }
  }

  /** While slots are being collected nothing is scanned: the outcome is
      the same whatever the table holds, and it is a delegation carrying the
      incoming slots, with the query added to the session. An unset or
      unreadable price slot still raises, because the prices are converted
      before the invocation source is inspected. */
  lemma ListingDialogDelegates(req: IntentRequest, t1: seq<Item>, t2: seq<Item>, withId: bool, b: Builtins)
    requires IsDialog(req)
    ensures ListingHandler(req, t1, withId, b) == ListingHandler(req, t2, withId, b)
    ensures PricesParse(req, b) ==>
              ListingHandler(req, t1, withId, b) == Ok(Response(ListingSession(req, b), Delegate(req.slots)))
    ensures !PricesParse(req, b) ==> ListingHandler(req, t1, withId, b).Err?
  {
  }

  /** `GetProductInfo` lists the main catalogue with product identifiers:
      at fulfilment over a readable catalogue the reply is the printed
      wanted products, each line ending with its identifier. */
  function GetProductInformation(req: IntentRequest, catalogue: seq<Item>, b: Builtins): (r: Result<Response>)
    ensures r.Ok? ==> (r.value.dialogAction.Delegate? <==> IsDialog(req))
    ensures !PricesParse(req, b) ==> r.Err?
    ensures IsDialog(req) ==> (r.Ok? <==> PricesParse(req, b))
    ensures !IsDialog(req) && PricesParse(req, b) ==>
              && (r.Ok? <==> ReadableFor(req, catalogue, true, b))
              && (ReadableFor(req, catalogue, true, b) ==>
                    r == Ok(Fulfilled(ListingSession(req, b), OrFallback(Lines(Asked(req, catalogue, true, b), true)))))
  {
    ListingReply(req, catalogue, true, b);
    ListingHandler(req, catalogue, true, b)
  }

  /** `CompareProducts` lists the comparison catalogue without identifiers. */
  function CompareProducts(req: IntentRequest, comparisonCatalogue: seq<Item>, b: Builtins): (r: Result<Response>)
    ensures r.Ok? ==> (r.value.dialogAction.Delegate? <==> IsDialog(req))
    ensures !PricesParse(req, b) ==> r.Err?
    ensures IsDialog(req) ==> (r.Ok? <==> PricesParse(req, b))
    ensures !IsDialog(req) && PricesParse(req, b) ==>
              && (r.Ok? <==> ReadableFor(req, comparisonCatalogue, false, b))
              && (ReadableFor(req, comparisonCatalogue, false, b) ==>
                    r == Ok(Fulfilled(ListingSession(req, b), OrFallback(Lines(Asked(req, comparisonCatalogue, false, b), false)))))
  {
    ListingReply(req, comparisonCatalogue, false, b);
    ListingHandler(req, comparisonCatalogue, false, b)
  }

  /** `product_details`: the last catalogue record whose lowered identifier
      equals the `ProductID` slot as typed, rendered attribute by attribute. */
  function ProductDetails(req: IntentRequest, catalogue: seq<Item>, b: Builtins): (r: Result<Response>)
    ensures r.Ok? ==> (r.value.dialogAction.Delegate? <==> IsDialog(req))
    ensures r.Ok? && !IsDialog(req) ==> ClosesFulfilled(r.value)
    ensures r.Err? ==> !IsDialog(req) && (r.error == KeyError("product_id") || r.error == KeyError("S"))
  {
    var productId := SlotText(req, "ProductID");
    var session := SessionWith(req, "productQuery", b.jsonDumps(ProductSearched(productId)));
    if IsDialog(req) then
      Ok(Response(session, Delegate(req.slots)))
    else
      var details :- LastWhere(catalogue, "product_id", Lower, productId);
      Ok(Fulfilled(session, OrFallback(Render(details))))
  }

  /** While slots are being collected the catalogue is not consulted: the
      answer is a delegation carrying the incoming slots, with the query
      added to the session. */
  lemma ProductDetailsDialogDelegates(req: IntentRequest, c1: seq<Item>, c2: seq<Item>, b: Builtins)
    requires IsDialog(req)
    ensures ProductDetails(req, c1, b) == ProductDetails(req, c2, b)
    ensures ProductDetails(req, c1, b) ==
              Ok(Response(SessionWith(req, "productQuery", b.jsonDumps(ProductSearched(SlotText(req, "ProductID")))),
                          Delegate(req.slots)))
  {
  }

  predicate AllIdentified(catalogue: seq<Item>) {
    forall i :: 0 <= i < |catalogue| ==> StringAttr(catalogue[i], "product_id").Ok?
  }

  /** Last match wins: the reply renders every attribute of the last record
      whose lowered identifier equals the slot, and is the fallback text
      exactly when no record matches. */
  lemma ProductDetailsReply(req: IntentRequest, catalogue: seq<Item>, b: Builtins)
    requires !IsDialog(req) && AllIdentified(catalogue)
    ensures var productId := SlotText(req, "ProductID");
            var session := SessionWith(req, "productQuery", b.jsonDumps(ProductSearched(productId)));
            && ((forall i :: 0 <= i < |catalogue| ==> !KeyMatches(catalogue[i], "product_id", Lower, productId)) <==>
                ProductDetails(req, catalogue, b) == Ok(Fulfilled(session, NoMatch)))
            && (forall i :: (0 <= i < |catalogue| && KeyMatches(catalogue[i], "product_id", Lower, productId) &&
                             (forall j :: i < j < |catalogue| ==> !KeyMatches(catalogue[j], "product_id", Lower, productId))) ==>
                  ProductDetails(req, catalogue, b) == Ok(Fulfilled(session, Render(catalogue[i]))))
  {
    var productId := SlotText(req, "ProductID");
    var session := SessionWith(req, "productQuery", b.jsonDumps(ProductSearched(productId)));
    var found := LastWhere(catalogue, "product_id", Lower, productId);
    assert found.Ok?;
    forall i | 0 <= i < |catalogue| && KeyMatches(catalogue[i], "product_id", Lower, productId) &&
               (forall j :: i < j < |catalogue| ==> !KeyMatches(catalogue[j], "product_id", Lower, productId))
      ensures ProductDetails(req, catalogue, b) == Ok(Fulfilled(session, Render(catalogue[i])))
    {
      LastWhereSelects(catalogue, "product_id", Lower, productId, i);
    }
    if found.value != [] {
      BarredReplyIsNotFallback(Render(found.value));
    }
  }

  /** The slot is compared as typed against lowered identifiers, so a slot
      holding a capital letter never matches and the reply is the fallback. */
  lemma ProductDetailsCapitalSlot(req: IntentRequest, catalogue: seq<Item>, b: Builtins)
    requires !IsDialog(req) && AllIdentified(catalogue)
    requires exists k :: 0 <= k < |SlotText(req, "ProductID")| && IsCapital(SlotText(req, "ProductID")[k])
    ensures ProductDetails(req, catalogue, b) ==
              Ok(Fulfilled(SessionWith(req, "productQuery", b.jsonDumps(ProductSearched(SlotText(req, "ProductID")))), NoMatch))
  {
    var productId := SlotText(req, "ProductID");
    forall i | 0 <= i < |catalogue|
      ensures !KeyMatches(catalogue[i], "product_id", Lower, productId)
    {
      var stored := StringAttr(catalogue[i], "product_id").value;
      var k :| 0 <= k < |productId| && IsCapital(productId[k]);
      assert |Lower(stored)| <= k || !IsCapital(Lower(stored)[k]);
    }
    ProductDetailsReply(req, catalogue, b);
  }

  const ProductIntents: set<string> := {"GetProductInfo", "CompareProducts", "SpecificProductDetails"}

  /** `dispatch` of the product bot: three intents, each with its own table;
      any other intent name raises. Every answer is a delegation while slots
      are collected and a fulfilled plain-text close otherwise. */
  function DispatchProducts(req: IntentRequest, catalogue: seq<Item>, comparisonCatalogue: seq<Item>, b: Builtins): (r: Result<Response>)
    ensures r == Err(IntentNotSupported(req.intentName)) <==> req.intentName !in ProductIntents
    ensures r.Ok? ==> (r.value.dialogAction.Delegate? <==> IsDialog(req))
    ensures r.Ok? && !IsDialog(req) ==> ClosesFulfilled(r.value)
    ensures req.intentName == "GetProductInfo" ==> r == GetProductInformation(req, catalogue, b)
    ensures req.intentName == "CompareProducts" ==> r == CompareProducts(req, comparisonCatalogue, b)
    ensures req.intentName == "SpecificProductDetails" ==> r == ProductDetails(req, catalogue, b)
  {
    if req.intentName == "GetProductInfo" then GetProductInformation(req, catalogue, b)
    else if req.intentName == "CompareProducts" then CompareProducts(req, comparisonCatalogue, b)
    else if req.intentName == "SpecificProductDetails" then ProductDetails(req, catalogue, b)
    else Err(IntentNotSupported(req.intentName))
  }
}

=== FILE: store.dfy ===
/** Records as a DynamoDB `scan` returns them: an ordered collection of named,
    typed attribute values, as in the `Items` list of the scan response. */
module Store {
  import opened Outcomes

  /** An attribute value: a string (`{'S': text}`) or a number, which the
      store carries as its decimal text (`{'N': text}`). Either way `text` is
      what `list(value.values())[0]` yields. */
  datatype AttrValue = S(text: string) | N(text: string)

  datatype Attribute = Attribute(name: string, value: AttrValue)

  predicate UniqueNames(attrs: seq<Attribute>) {
    forall i, j :: 0 <= i < j < |attrs| ==> attrs[i].name != attrs[j].name
  }

  /** One record: its attributes in iteration order, each name at most once
      (a Python dict). */
  type Item = attrs: seq<Attribute> | UniqueNames(attrs) witness []

  /** `record[name]`, or `None` where Python raises `KeyError`. */
  function Find(attrs: seq<Attribute>, name: string): (r: Option<AttrValue>)
    ensures r.Some? ==> attrs != []
    decreases |attrs|
  {
    if attrs == [] then None
    else if attrs[0].name == name then Some(attrs[0].value)
    else Find(attrs[1..], name)
  }

  /** The lookup finds an attribute exactly when the record has one of that
      name, and what it finds is that attribute's value. */
  lemma {:induction false} FindSpec(attrs: seq<Attribute>, name: string)
    ensures Find(attrs, name).Some? <==> exists i :: 0 <= i < |attrs| && attrs[i].name == name
    ensures Find(attrs, name).Some? ==> exists i :: 0 <= i < |attrs| && attrs[i] == Attribute(name, Find(attrs, name).value)
    decreases |attrs|
  {
    if attrs != [] && attrs[0].name != name {
      var rest := attrs[1..];
      FindSpec(rest, name);
      if exists i :: 0 <= i < |attrs| && attrs[i].name == name {
        var i :| 0 <= i < |attrs| && attrs[i].name == name;
        assert rest[i - 1].name == name;
      }
      if Find(rest, name).Some? {
        var i :| 0 <= i < |rest| && rest[i] == Attribute(name, Find(rest, name).value);
        assert attrs[i + 1] == rest[i];
      }
    } else if attrs != [] {
      assert attrs[0] == Attribute(name, Find(attrs, name).value);
    }
  }

  /** `record[name]['S']`: a missing attribute raises `KeyError(name)`, a
      number attribute `KeyError('S')`. */
  function StringAttr(item: Item, name: string): (r: Result<string>)
    ensures r.Ok? <==> Find(item, name).Some? && Find(item, name).value.S?
    ensures Find(item, name).None? ==> r == Err(KeyError(name))
    ensures Find(item, name).Some? && Find(item, name).value.N? ==> r == Err(KeyError("S"))
  {
    match Find(item, name)
    case Some(S(text)) => Ok(text)
    case Some(N(_)) => Err(KeyError("S"))
    case None => Err(KeyError(name))
  }

  /** `record[name]['N']`: the number's decimal text, unparsed. A missing
      attribute raises `KeyError(name)`, a string attribute `KeyError('N')`. */
  function NumberAttr(item: Item, name: string): (r: Result<string>)
    ensures r.Ok? <==> Find(item, name).Some? && Find(item, name).value.N?
    ensures Find(item, name).None? ==> r == Err(KeyError(name))
    ensures Find(item, name).Some? && Find(item, name).value.S? ==> r == Err(KeyError("N"))
  {
    match Find(item, name)
    case Some(N(text)) => Ok(text)
    case Some(S(_)) => Err(KeyError("N"))
    case None => Err(KeyError(name))
  }

  /** The text ends with the record separator " | ". */
  predicate EndsWithBar(s: string) {
    |s| >= 3 && s[|s| - 3..] == " | "
  }

  /** Text ending with the separator keeps ending with it when prefixed. */
  lemma BarAfter(a: string, b: string)
    requires EndsWithBar(b)
    ensures EndsWithBar(a + b)
  {
    assert (a + b)[|a + b| - 3..] == b[|b| - 3..];
  }

  /** The line for one attribute: its name, a colon, its value's text and
      the record separator. */
  function AttributeLine(a: Attribute): (r: string)
    ensures |r| == |a.name| + |a.value.text| + 5
    ensures r[..|a.name|] == a.name && r[|a.name|..|a.name| + 2] == ": "
    ensures r[|a.name| + 2..|r| - 3] == a.value.text
    ensures EndsWithBar(r)
  {
    a.name + ": " + a.value.text + " | "
  }

  /** Every attribute of a record, one `key: value | ` line each, in
      iteration order. Only the record with no attributes renders empty. */
  function Render(attrs: seq<Attribute>): (r: string)
    ensures r == "" <==> attrs == []
    ensures attrs != [] ==> EndsWithBar(r)
    decreases |attrs|
  {
    if attrs == [] then ""
    else Render(attrs[..|attrs| - 1]) + AttributeLine(attrs[|attrs| - 1])
  }

  lemma AppendSplit(a: seq<Attribute>, b: seq<Attribute>)
    requires b != []
    ensures a + b == (a + b[..|b| - 1]) + [b[|b| - 1]]
    ensures b == b[..|b| - 1] + [b[|b| - 1]]
  {
  }

  lemma RenderSnoc(s: seq<Attribute>, x: Attribute)
    ensures Render(s + [x]) == Render(s) + AttributeLine(x)
  {
    assert (s + [x])[..|s|] == s;
  }

  /** Rendering distributes over concatenation, so each attribute appears as
      its own line, in order, whatever surrounds it. */
  lemma {:induction false} RenderConcat(a: seq<Attribute>, b: seq<Attribute>)
    ensures Render(a + b) == Render(a) + Render(b)
    decreases |b|
  {
    if b == [] {
      assert a + b == a;
      assert Render(a) + "" == Render(a);
    } else {
      RenderConcat(a, b[..|b| - 1]);
      RenderConcatStep(a, b);
    }
  }

  /** The induction step of `RenderConcat`: the last attribute of `b`. */
  lemma RenderConcatStep(a: seq<Attribute>, b: seq<Attribute>)
    requires b != [] && Render(a + b[..|b| - 1]) == Render(a) + Render(b[..|b| - 1])
    ensures Render(a + b) == Render(a) + Render(b)
  {
    var init, last := b[..|b| - 1], b[|b| - 1];
    AppendSplit(a, b);
    RenderSnoc(a + init, last);
    RenderSnoc(init, last);
    Associative(Render(a), Render(init), AttributeLine(last));
  }

  lemma Associative(x: string, y: string, z: string)
    ensures (x + y) + z == x + (y + z)
  {
  }

  lemma SplitAt(attrs: seq<Attribute>, i: int)
    requires 0 <= i < |attrs|
    ensures attrs == (attrs[..i] + [attrs[i]]) + attrs[i + 1..]
  {
  }

  lemma RenderOne(x: Attribute)
    ensures Render([x]) == AttributeLine(x)
  {
    assert [x][..0] == [];
    assert "" + AttributeLine(x) == AttributeLine(x);
  }

  /** The line of the i-th attribute sits between the rendering of the
      attributes before it and of those after it. */
  lemma RenderShowsAttribute(attrs: seq<Attribute>, i: int)
    requires 0 <= i < |attrs|
    ensures Render(attrs) == Render(attrs[..i]) + AttributeLine(attrs[i]) + Render(attrs[i + 1..])
  {
    var before, x, after := attrs[..i], attrs[i], attrs[i + 1..];
    SplitAt(attrs, i);
    RenderConcat(before + [x], after);
    RenderConcat(before, [x]);
    RenderOne(x);
  }

  /** The record carries string attribute `name`, and that string, passed
      through `fold`, equals `key`. */
  predicate KeyMatches(item: Item, name: string, fold: string -> string, key: string) {
    StringAttr(item, name).Ok? && fold(StringAttr(item, name).value) == key
  }

  /** The scan loop that overwrites its answer on every match: the LAST
      record whose folded string attribute `name` equals `key`, or the empty
      record `{}` when none does. Every record is read, so one lacking the
      attribute raises. */
  function LastWhere(items: seq<Item>, name: string, fold: string -> string, key: string): (r: Result<Item>)
    ensures r.Err? ==> r.error == KeyError(name) || r.error == KeyError("S")
    ensures r.Ok? <==> forall i :: 0 <= i < |items| ==> StringAttr(items[i], name).Ok?
    ensures r.Ok? && r.value == [] ==>
              forall i :: 0 <= i < |items| ==> !KeyMatches(items[i], name, fold, key)
    ensures r.Ok? && r.value != [] ==>
              exists i :: 0 <= i < |items| && items[i] == r.value && KeyMatches(items[i], name, fold, key) &&
                          forall j :: i < j < |items| ==> !KeyMatches(items[j], name, fold, key)
    decreases |items|
  {
    if items == [] then Ok([])
    else
      var earlier :- LastWhere(items[..|items| - 1], name, fold, key);
      var value :- StringAttr(items[|items| - 1], name);
      Ok(if fold(value) == key then items[|items| - 1] else earlier)
  }

  /** Last match wins: the record at index `i` is the answer exactly when it
      matches and no later record does. */
  lemma LastWhereSelects(items: seq<Item>, name: string, fold: string -> string, key: string, i: int)
    requires forall j :: 0 <= j < |items| ==> StringAttr(items[j], name).Ok?
    requires 0 <= i < |items| && KeyMatches(items[i], name, fold, key)
    requires forall j :: i < j < |items| ==> !KeyMatches(items[j], name, fold, key)
    ensures LastWhere(items, name, fold, key) == Ok(items[i])
  {
    var r := LastWhere(items, name, fold, key);
    assert items[i] != [] by {
      assert Find(items[i], name).Some?;
    }
    var i' :| 0 <= i' < |items| && items[i'] == r.value && KeyMatches(items[i'], name, fold, key) &&
              forall j :: i' < j < |items| ==> !KeyMatches(items[j], name, fold, key);
    assert i' == i;
  }
}

=== FILE: text.dfy ===
/** The string operations the handlers use: ASCII case mapping (`str.lower`,
    `str.upper`), decimal printing (`str(n)`) and integer parsing (`int(s)`). */
module Text {
  import opened Outcomes

  predicate IsCapital(c: char) {
    'A' <= c <= 'Z'
  }

  predicate IsSmall(c: char) {
    'a' <= c <= 'z'
  }

  predicate IsDigit(c: char) {
    '0' <= c <= '9'
  }

  function LowerChar(c: char): char {
    if IsCapital(c) then (c as int + 32) as char else c
  }

  function UpperChar(c: char): char {
    if IsSmall(c) then (c as int - 32) as char else c
  }

  /** `s.lower()` on the ASCII letters: every capital becomes its small
      letter, every other character is kept, so no capital remains. */
  function Lower(s: string): (r: string)
    ensures |r| == |s|
    ensures forall i :: 0 <= i < |r| ==> !IsCapital(r[i])
    ensures forall i :: 0 <= i < |s| && IsCapital(s[i]) ==> r[i] as int == s[i] as int + 32
    ensures forall i :: 0 <= i < |s| && !IsCapital(s[i]) ==> r[i] == s[i]
  {
    seq(|s|, i requires 0 <= i < |s| => LowerChar(s[i]))
  }

  /** `s.upper()` on the ASCII letters: every small letter becomes its
      capital, every other character is kept, so no small letter remains. */
  function Upper(s: string): (r: string)
    ensures |r| == |s|
    ensures forall i :: 0 <= i < |r| ==> !IsSmall(r[i])
    ensures forall i :: 0 <= i < |s| && IsSmall(s[i]) ==> r[i] as int == s[i] as int - 32
    ensures forall i :: 0 <= i < |s| && !IsSmall(s[i]) ==> r[i] == s[i]
  {
    seq(|s|, i requires 0 <= i < |s| => UpperChar(s[i]))
  }

  /** Lowering an uppercased string gives the lowered original: `s.upper()`
      and `s` are equal ignoring case. */
  lemma LowerOfUpper(s: string)
    ensures Lower(Upper(s)) == Lower(s)
  {
    assert forall i :: 0 <= i < |s| ==> LowerChar(UpperChar(s[i])) == LowerChar(s[i]);
  }

  predicate StartsWith(s: string, prefix: string) {
    |prefix| <= |s| && s[..|prefix|] == prefix
  }

  predicate EndsWith(s: string, suffix: string) {
    |suffix| <= |s| && s[|s| - |suffix|..] == suffix
  }

  lemma EndsWithAppend(a: string, b: string, suffix: string)
    requires EndsWith(b, suffix)
    ensures EndsWith(a + b, suffix)
  {
    assert (a + b)[|a + b| - |suffix|..] == b[|b| - |suffix|..];
  }

  lemma StartsWithShorter(s: string, a: string, b: string)
    requires StartsWith(s, a + b)
    ensures StartsWith(s, a)
  {
    assert s[..|a|] == (a + b)[..|a|];
  }

  lemma EndsWithJoin(a: string, b: string, c: string)
    ensures EndsWith(a + b + c, b + c)
  {
    assert a + b + c == a + (b + c);
    ConcatEnds(a, b + c);
  }

  lemma ConcatEnds(a: string, b: string)
    ensures StartsWith(a + b, a) && EndsWith(a + b, b)
  {
    assert (a + b)[..|a|] == a;
    assert (a + b)[|a + b| - |b|..] == b;
  }

  function DigitChar(d: nat): char
    requires d < 10
  {
    "0123456789"[d]
  }

  function DigitValue(c: char): nat
    requires IsDigit(c)
  {
    c as int - '0' as int
  }

  predicate AllDigits(s: string) {
    forall i :: 0 <= i < |s| ==> IsDigit(s[i])
  }

  /** `str(n)` for a non-negative integer: its shortest decimal numeral. */
  function DecimalString(n: nat): (r: string)
    ensures |r| > 0 && AllDigits(r)
    ensures n >= 10 ==> r[0] != '0'
    decreases n
  {
    if n < 10 then [DigitChar(n)] else DecimalString(n / 10) + [DigitChar(n % 10)]
  }

  /** The value of a string of decimal digits, most significant first. */
  function DigitsValue(s: string): nat
    requires AllDigits(s)
    decreases |s|
  {
    if s == [] then 0 else DigitsValue(s[..|s| - 1]) * 10 + DigitValue(s[|s| - 1])
  }

  /** `int(s)` for a string made of an optional sign and at least one ASCII
      digit; `None` where Python raises `ValueError`. */
  function ParseInt(s: string): (r: Option<int>)
    ensures r.Some? <==> (|s| > 0 && AllDigits(s)) || (|s| > 1 && (s[0] == '+' || s[0] == '-') && AllDigits(s[1..]))
    ensures |s| > 0 && AllDigits(s) ==> r == Some(DigitsValue(s))
    ensures |s| > 1 && s[0] == '+' && AllDigits(s[1..]) ==> r == Some(DigitsValue(s[1..]))
    ensures |s| > 1 && s[0] == '-' && AllDigits(s[1..]) ==> r.Some? && r.value == -(DigitsValue(s[1..]) as int)
    ensures r.Some? && r.value < 0 ==> s[0] == '-'
  {
    if |s| > 0 && (s[0] == '+' || s[0] == '-') then
      var magnitude :- ParseUnsigned(s[1..]);
      var signed: int := if s[0] == '-' then -(magnitude as int) else magnitude;
      Some(signed)
    else
      ParseUnsigned(s)
  }

  function ParseUnsigned(s: string): Option<nat> {
    if |s| > 0 && AllDigits(s) then Some(DigitsValue(s)) else None
  }

  lemma {:induction false} DigitsOfDecimal(n: nat)
    ensures DigitsValue(DecimalString(n)) == n
    decreases n
  {
    if n >= 10 {
      var prefix := DecimalString(n / 10);
      var s := prefix + [DigitChar(n % 10)];
      assert s[..|s| - 1] == prefix;
      DigitsOfDecimal(n / 10);
    }
  }

  /** `int(str(n)) == n`: printing a number and parsing it back is lossless. */
  lemma ParseDecimalRoundTrip(n: nat)
    ensures ParseInt(DecimalString(n)) == Some(n)
  {
    DigitsOfDecimal(n);
  }

  /** Distinct numbers print as distinct numerals. */
  lemma DecimalStringInjective(a: nat, b: nat)
    ensures DecimalString(a) == DecimalString(b) <==> a == b
  {
    if DecimalString(a) == DecimalString(b) {
      ParseDecimalRoundTrip(a);
      ParseDecimalRoundTrip(b);
    }
  }

  /** Every number in [10000, 99999] prints as exactly five digits. */
  lemma FiveDigitNumeral(n: nat)
    requires 10000 <= n <= 99999
    ensures |DecimalString(n)| == 5
  {
    assert |DecimalString(n / 10000)| == 1;
    assert |DecimalString(n / 1000)| == 2 by { assert (n / 1000) / 10 == n / 10000; }
    assert |DecimalString(n / 100)| == 3 by { assert (n / 100) / 10 == n / 1000; }
    assert |DecimalString(n / 10)| == 4 by { assert (n / 10) / 10 == n / 100; }
  }
}
